=== FILE: README.md ===
# Space shooter client — a Dafny model

This project models the client side of a browser-based multiplayer space
shooter. The client is a React page running a Three.js first-person engine that
talks to a game server over one WebSocket. The model covers five parts:

- **Network**: the send loop (`startClient` / `runClient` / `stopClient`) and the
  reconciliation of the remote-player roster with each inbound snapshot
  (`setPlayer`, `updateState`).
- **Engine**: the frame substeps, the collision responses (player against the
  world, player against a sphere, sphere against sphere), the ball-throw index,
  and the shot queue drained into each outbound snapshot.
- **Game**: the socket handlers that dispatch inbound messages by key, create a
  `Network` per handshake, start the game and disconnect on error or close.
- **Player, Controls, AnimatedModel**: player kinematics, the held-key set and
  movement keys, the pitch clamp, and the idle/run animation blend.
- **World and Utils**: the rock registry (`addRock`, `destroyRock`, `shootRay`),
  and the vector/JSON, time and enum helpers.

Modules follow the source files:

- `Wrappers`: `Option`, `Result`.
- `Vectors`: 3-vectors over `real` and their algebra.
- `Types`: the wire records.
- `Utils`, `AnimatedModel`, `Player`, `Controls`.
- `Collisions`: the collision functions of `Engine.ts`.
- `Engine`, `Network`, `World`, `Game`.

Every object the source mutates in place is an immutable datatype here. Each
operation returns the updated value.

Numbers are `real`; times are integer milliseconds. `Math.exp`, `Math.sqrt`,
`Vector3.normalize`, the camera's direction and up vectors, and the octree's
capsule and sphere queries are foreign calls. They are passed in as values
(`MathLib`, `Env`), and properties that need a unit normal say so in a
precondition.

Scene-graph side effects are recorded in the engine's `hooks` log, in order:
loading a model, unloading models, painting a splatter, clearing splatters. The
React setters the world calls are recorded in the world's `effects` log.

Where the code and its documentation differ, the model follows the code:

- `Engine.GRAVITY` is `0` (src/game/Engine.ts:12). Gravity is a parameter of
  `Player.UpdatePlayer`, and the engine passes `0`.
- `setPlayer` writes only the capsule's upper end, so a remote player's capsule
  does not keep its shape.
- In `playerSphereCollision`, the midpoint and the contact normal share one
  scratch vector (`vectors.vector1`). The third sample point is the midpoint only
  when neither end of the capsule touched the sphere. `Collisions.SamplePoint`
  threads that scratch vector explicitly.
- In `controls`, `multiplyScalar` scales `player.direction` in place. A
  movement key therefore leaves `direction` equal to the scaled push.
- Every `startClient` call arms its own loop. A second handshake makes a second
  `Network` without stopping the first, so the first one's loop keeps sending
  from the same engine (`Game.ReconnectKeepsOldLoop`).
- `World` as given declares no `spheres`, `sphereIdx` or `splatters` fields,
  and `Types.ts` declares no `Rock` type, although the engine and `Rocks.tsx` use
  them. The model gives the engine its own `spheres` and `sphereIdx`, and defines
  `World.Rock` with the fields that are used.

## Model

| member | source | states |
|---|---|---|
| Utils.OffsetTime | src/Utils.ts:9-11 | the resulting time is exactly `offset` milliseconds after the given one |
| Utils.OffsetTimeComposes | src/Utils.ts:9-11 | offsets compose by addition, an offset is undone by its negation, and a zero offset changes nothing |
| Utils.CreateVectorJSON | src/Utils.ts:19-25 | x, y and z of a vector are copied exactly |
| Utils.CreateEulerJSON | src/Utils.ts:19-25 | x, y and z of an Euler triple are copied exactly |
| Utils.SetVector | src/Utils.ts:34-36 | reading a vector back after setting it gives the JSON it was set from |
| Utils.SetEuler | src/Utils.ts:34-36 | reading Euler angles back after setting them gives the JSON; the rotation order is kept |
| Utils.VectorJSONRoundTrip | src/Utils.ts:19-36 | setting from a vector's JSON restores that vector (and Euler angles, order included) |
| Utils.GetEnumKeys | src/Utils.ts:60-62 | the keys are exactly the enum's member names, in order |
| Utils.CheckEnum | src/Utils.ts:64-66 | true iff the value is one of the enum's values |
| Utils.WorldNameAcceptsOnlySpace | src/world/WorldLoader.tsx:6-8 | the world-name check accepts exactly "Space" |
| Types.Ids | src/game/Network.ts:73-75 | the ids collected are exactly the snapshot's keys |
| AnimatedModel.NewModel | src/game/AnimatedModel.ts:25-28 | a new model keeps its mesh path and has no actions |
| AnimatedModel.IdleAction | src/game/AnimatedModel.ts:13-15 | the idle action exists iff actions are loaded, and is the first one |
| AnimatedModel.WalkAction | src/game/AnimatedModel.ts:17-19 | the walk action exists iff actions are loaded, and is the second one |
| AnimatedModel.RunAction | src/game/AnimatedModel.ts:21-23 | the run action exists iff actions are loaded, and is the third one |
| AnimatedModel.SetWeight | src/game/AnimatedModel.ts:102-106 | the action is enabled, at time scale 1, with the given weight; paused/playing kept |
| AnimatedModel.Play | src/game/AnimatedModel.ts:67 | the action plays, with weight, scale and pause state kept |
| AnimatedModel.ActivateAllActions | src/game/AnimatedModel.ts:62-68 | fails iff nothing is loaded; otherwise idle 1, walk 0, run 0, all enabled and playing, pause states kept |
| AnimatedModel.CompleteLoad | src/game/AnimatedModel.ts:53-58 | once the clips arrive the model has actions with weights 1/0/0 |
| AnimatedModel.PauseAll | src/game/AnimatedModel.ts:70-74 | every action gets the given paused flag; weights kept |
| AnimatedModel.PauseContinue | src/game/AnimatedModel.ts:80-86 | fails iff nothing is loaded; otherwise all actions become paused iff idle was running |
| AnimatedModel.PauseContinueTwice | src/game/AnimatedModel.ts:80-86 | on a uniformly paused or running set, toggling twice restores the model |
| AnimatedModel.ClampSpeed | src/game/AnimatedModel.ts:96 | speeds above 6 become 6; others are kept |
| AnimatedModel.UpdateAction | src/game/AnimatedModel.ts:94-100 | no actions: no change; otherwise idle+run weights sum to 1, run weight is clamped speed / 6, walk untouched, weights in [0,1] for speed >= 0 |
| AnimatedModel.UpdateActionSaturates | src/game/AnimatedModel.ts:96-98 | any speed above 6 blends exactly as speed 6 |
| Player.Translate | src/game/Player.ts:78 | both capsule ends move by the same delta, so shape and radius are kept |
| Player.InitializeCollider | src/game/Player.ts:53-57 | the capsule is reset to start (-5,0.35,5), end (-5,1.66,5), radius 0.35 |
| Player.NewPlayer | src/game/Player.ts:22-37 | a new player is at rest, airborne, not lead, has the standard capsule, and has a model iff a non-empty model path was given |
| Player.TranslateColliderToPosition | src/game/Player.ts:63-67 | the position is the capsule's upper end lowered by the height in y only; nothing else changes |
| Player.Damped | src/game/Player.ts:69-76 | on the floor velocity is scaled by the decay; airborne, gravity is taken off y and only a tenth of the damping applies |
| Player.ScaleBySum | src/game/Player.ts:76 | adding a vector scaled by k to itself scales it by 1+k |
| Player.UpdatePlayer | src/game/Player.ts:69-84 | velocity is damped by exp(-4 dt); the capsule keeps its shape and moves by velocity*dt; the model's position follows the capsule |
| Player.UpdatePlayerFloorVersusAir | src/game/Player.ts:70-76 | the vertical velocity after one step on the floor and in the air, as closed forms |
| Controls.OnKey | src/game/Controls.ts:39-44 | keydown adds the code, keyup removes it, other codes unchanged |
| Controls.OnKeysSnoc | src/game/Controls.ts:39-44 | handling one more event is applying it to the key set so far |
| Controls.KeySetIsHeldKeys | src/game/Controls.ts:39-44 | after any event sequence, a code is in the set iff it is held (its last event was a keydown, or it was held before with no events since) |
| Controls.OnMouseMove | src/game/Controls.ts:50-58 | unlocked: no change; locked: yaw follows x; pitch changes only to a value strictly inside (-1.5, 1.5) |
| Controls.PitchStaysInRange | src/game/Controls.ts:53-56 | an in-range pitch stays in range under any mouse movement |
| Controls.SpeedDelta | src/game/Controls.ts:63 | the push is dt*25 on the floor and dt*8 in the air |
| Controls.Push | src/game/Controls.ts:65-76 | a pressed key adds the scaled direction to the velocity and leaves that scaled vector as the direction |
| Controls.ApplyControls | src/game/Controls.ts:61-82 | the velocity gains the summed thrust of the held keys (W forward, S backward, A against and D along the side vector, each scaled by the floor or air speed delta); Space on the floor then sets vertical velocity to exactly 15; `direction` ends as the last handled key's scaled vector (the getters overwrite it); the capsule, floor flag and position are kept; no keys leave the player unchanged |
| Controls.NoJumpInAir | src/game/Controls.ts:77-81 | Space alone while airborne changes nothing |
| Controls.PushThenOpposite | src/game/Controls.ts:65-70 | pushing by k then by -k along the same vector restores the velocity |
| Controls.OppositeKeysCancel | src/game/Controls.ts:65-76 | with W and S (and A and D) pressed together and no jump, the velocity is unchanged |
| Vectors.RemoveNormalComponent | src/game/Engine.ts:77-78 | removing a vector's component along a unit normal leaves it orthogonal to the normal |
| Collisions.PlayerCollisions | src/game/Engine.ts:72-82 | no contact: only onFloor becomes false; a contact sets onFloor iff normal.y > 0, moves the capsule by normal*depth, keeps velocity on floors and makes it orthogonal to a unit wall normal |
| Collisions.Exchange | src/game/Engine.ts:95-99 | the velocity exchange keeps the sum of the two velocities |
| Collisions.ExchangeSwapsNormalParts | src/game/Engine.ts:95-99 | along a unit normal, the two bodies swap their velocity components |
| Collisions.SamplePoint | src/game/Engine.ts:92-103 | one sample point keeps the velocity sum and changes nothing when it does not overlap |
| Collisions.PlayerSphereCollision | src/game/Engine.ts:84-105 | the player's and sphere's velocity sum is kept and only the player's velocity changes |
| Collisions.PlayerSphereNoTouch | src/game/Engine.ts:91-93 | when no sample point overlaps, neither body changes |
| Collisions.ThirdPointIsLastNormal | src/game/Engine.ts:85-94 | when only the start overlaps, the third point sampled is the start's contact normal, not the midpoint |
| Collisions.CollidePair | src/game/Engine.ts:112-127 | the velocity and centre sums of a pair are kept; a non-overlapping pair is untouched |
| Collisions.CollidePairSwapsNormalVelocity | src/game/Engine.ts:116-121 | an overlapping pair swaps velocity components along the unit contact normal |
| Collisions.CollidePairExchanges | src/game/Engine.ts:116-121 | an overlapping pair's velocities are the exchange along the normalized centre difference |
| Collisions.HeadOnExchange | src/game/Engine.ts:117-121 | two unit velocities meeting head-on along x are swapped |
| Collisions.HeadOnSpheresReverse | src/game/Engine.ts:115-121 | two equal spheres meeting head-on bounce back with reversed velocities |
| Collisions.SpheresCollisions | src/game/Engine.ts:107-130 | all pairs processed: count and radii kept, total velocity and total of centres unchanged |
| Engine.NewEngine | src/game/Engine.ts:36-49 | a new engine has the given player, no remote players, no shots, and nothing attached |
| Engine.FrameDt | src/game/Engine.ts:210 | the substep is at most 0.01 and five substeps cover min(0.05, delta) exactly |
| Engine.UpdatePlayers | src/game/Engine.ts:234-238 | every remote player is stepped with gravity 0: its velocity is damped as `Player.Damped` says and its capsule moves by the new velocity times `dt`; same ids, names and capsule shapes |
| Engine.SphereWorldStep | src/game/Engine.ts:133-145 | a sphere's world step keeps its radius |
| Engine.SpheresWithPlayer | src/game/Engine.ts:133-148 | the per-sphere pass changes only the player's velocity and keeps every sphere's radius |
| Engine.UpdateSpheres | src/game/Engine.ts:132-155 | the player comes out of the per-sphere pass `SpheresWithPlayer` with only its velocity changed; the spheres keep their count and radii; with no spheres nothing changes |
| Engine.TeleportIfOob | src/game/Engine.ts:64-70 | at or below y = -25 the capsule is reset and the camera moved to its end with zero rotation; otherwise nothing changes |
| Engine.TeleportIfOobIdempotent | src/game/Engine.ts:64-70 | checking again right after the check changes nothing, since the spawn pose is above the threshold |
| Engine.Substep | src/game/Engine.ts:214-223 | the remote players take one `updatePlayers` step; the local player goes through the controls, the camera yaw, one integration step, the world collision and the out-of-bounds check in order, and its velocity is the one the sphere pass leaves; with no spheres player and camera are exactly `LocalStep`'s; the camera ends on the capsule's upper end; nothing else in the engine changes |
| Engine.Substeps | src/game/Engine.ts:214-223 | `n` substeps in a row: each remote player has taken exactly `n` integration steps; with no spheres the local player and camera are `n` iterations of `LocalStep`; the camera sits on the capsule's upper end once a step has run; the roster ids, controls, shots and hooks are kept |
| Engine.Animate | src/game/Engine.ts:205-223 | not ready: no change; otherwise every remote player has taken exactly five integration steps of `FrameDt(delta)`, with no spheres the local player and camera are five `LocalStep`s, the camera sits on the capsule's upper end, and the roster ids and shapes, controls, shots and hooks are kept |
| Engine.ThrowBall | src/game/Engine.ts:240-255 | without camera or controls nothing happens; otherwise `player.direction` becomes the camera direction; an invalid index then throws; a valid one launches that sphere from the capsule end `1.5 * radius` along the direction with velocity `impulse * direction + 2 * player velocity`, advances the index modulo the count, and changes no other sphere or engine field |
| Engine.ThrowsCycle | src/game/Engine.ts:254 | after `k` throws the index has moved `k` places round the ring of spheres |
| Engine.ThrowRoundReturns | src/game/Engine.ts:254 | one throw per sphere brings the index back to where it started |
| Engine.ClearAllSplatters | src/game/Engine.ts:313-319 | with a scene, one clear-splatters event is logged; otherwise nothing changes |
| Engine.Shoot | src/game/Engine.ts:323-337 | with camera, scene and controls present, exactly one shot is queued, starting at the camera position, pointing along the camera's world direction, coloured random*0xffffff, and the same splatter is painted locally; nothing else in the engine changes; without them nothing changes |
| Engine.ReverseIndex | src/game/Engine.ts:341-343 | popping into a list puts element i of the reversal at position n-1-i |
| Engine.DrainShots | src/game/Engine.ts:340-343 | the drained list is the queue reversed and the queue ends empty |
| Engine.CreateStateMessage | src/game/Engine.ts:339-353 | the message carries the player's id, name and fields (round-tripping through JSON), the shots newest first, and the queue is emptied |
| Engine.ShootThenSnapshot | src/game/Engine.ts:323-352 | the shot just fired is the first of the next snapshot, followed by the older shots newest first |
| Network.IntervalOrDefault | src/game/Network.ts:17 | a missing or zero interval becomes 100; any other is kept |
| Network.NewSession | src/game/Network.ts:14-20 | a new network is not running, has no loop, and has a non-zero interval |
| Network.TimerDue | src/game/Network.ts:37-38 | a timer fires after its delay, and at once for a negative delay |
| Network.StartClient | src/game/Network.ts:22-26 | running becomes true and one more loop is due one interval from now |
| Network.StopClient | src/game/Network.ts:46-48 | running becomes false and nothing else changes |
| Network.StopClientIdempotent | src/game/Network.ts:46-48 | stopping twice is stopping once |
| Network.Wake | src/game/Network.ts:28-44 | one iteration sets the deadline to now+interval, sends one snapshot draining the shots, then sleeps until the deadline or, once stopped, ends the loop |
| Network.WakeKeepsCadence | src/game/Network.ts:31-38 | an on-time wake with a send no longer than the interval is due again exactly one interval later |
| Network.RunOnTime | src/game/Network.ts:28-44 | repeated wakes keep the number of loops while running |
| Network.RunOnTimeSchedule | src/game/Network.ts:29-43 | the n-th send of a running loop is exactly n intervals after its first; the schedule does not drift |
| Network.RunOnTimeKeepsOutbox | src/game/Network.ts:28-44 | earlier sends are never altered by later iterations |
| Network.WakeAfterStop | src/game/Network.ts:36-41 | after stop, a wake sends once and removes its loop |
| Network.AtMostOneSendPerLoopAfterStop | src/game/Network.ts:36-41 | after stop, whatever timers fire, each live loop sends at most once more and the session never restarts |
| Network.SetPlayer | src/game/Network.ts:55-66 | the player's name, upper capsule end, velocity, orientation and direction read back as the snapshot's; id, model and floor kept; one splatter per shot, in order |
| Network.Replay | src/game/Network.ts:62-65 | one splatter per shot, in order, with its origin, direction and colour |
| Network.Departed | src/game/Network.ts:87-92 | the players removed are exactly the known ones missing from the snapshot that have a model |
| Network.UpdateState | src/game/Network.ts:68-93 | without a scene nothing changes; otherwise only the roster and the hook log change |
| Network.ApplyEntriesKeys | src/game/Network.ts:74-86 | the entry loop adds exactly the snapshot's ids other than ours, leaves unmentioned players alone, keeps models, and gives new players a model |
| Network.ApplyEntriesFields | src/game/Network.ts:74-86 | every entry other than ours ends with its snapshot's fields |
| Network.ApplyEntriesLoads | src/game/Network.ts:79-83 | the entry loop loads a model for exactly the new ids |
| Network.ApplyEntriesSplats | src/game/Network.ts:74-86 | apart from loads, the entry loop replays every other player's shots in snapshot order |
| Network.DepartedAreStale | src/game/Network.ts:87-92 | with every known player modelled, the second loop removes exactly the known ids the snapshot omits |
| Network.UpdateStateRoster | src/game/Network.ts:68-93 | the roster's ids become exactly the snapshot's minus ours, each with its snapshot fields and a model |
| Network.UpdateStateHooks | src/game/Network.ts:68-93 | the hooks appended load exactly the new ids, replay the snapshot's shots, then unload exactly the departed ids when there are any |
| Network.UpdateStateLeavesSelfAlone | src/game/Network.ts:76-78 | our own id is never added to or changed in the roster |
| Network.UpdateStateTwice | src/game/Network.ts:74-92 | applying the same snapshot again creates and removes nothing but replays its shots again |
| Network.JoinThenLeave | src/game/Network.ts:79-92 | a player that joins and then is missing is unloaded exactly once and the roster is empty again |
| World.NewRegistry | src/world/World.ts:39-54 | a new world has an empty registry, no first rock and a zero count |
| World.ScatterCoordinate | src/world/World.ts:130 | a random value in [0,1) gives a coordinate in [-20,20) |
| World.AddRock | src/world/World.ts:123-139 | the count rises by one; the id maps to a rock with that id at z = 25 + 10*old count and x, y in [-20,20); the first rock is set once; the setter gets the list plus the rock |
| World.FirstRockIsKept | src/world/World.ts:133-135 | the first rock added stays the first rock after later additions |
| World.RocksAreSpaced | src/world/World.ts:124 | consecutive rocks are 10 apart along z |
| World.AttachMesh | src/world/Rocks.tsx:64-69 | mounting a rock's mesh files its uuid under the rock's id and gives the rock that mesh, in the registry, in every copy of it in `rocks`, and in `firstRock` when that is the same rock |
| World.WithoutGuid | src/world/World.ts:107 | the filtered list holds exactly the rocks with a different guid |
| World.WithoutGuidDistributes | src/world/World.ts:107 | filtering a concatenation is concatenating the filtered parts |
| World.DestroyRock | src/world/World.ts:103-112 | an unknown id changes nothing; a known one is forgotten with its mesh uuid, explodes if it has a mesh, the setter gets the list without it, and the current rock is cleared |
| World.AddThenDestroy | src/world/World.ts:103-139 | destroying a just-added rock restores the id and mesh registries, and hands the setter the earlier list |
| World.RockOfMesh | src/world/World.ts:94-95 | a mesh selects a rock iff its uuid maps to a non-empty id that is still filed |
| World.Selections | src/world/World.ts:92-99 | the traversal selects one rock per matching mesh |
| World.ShootRay | src/world/World.ts:83-101 | with the setter wired, the current rock is cleared first; no hit does nothing more |
| World.LastSelected | src/world/World.ts:92-99 | the reference choice is the last mesh in traversal order that selects a rock, and none iff no mesh does |
| World.SelectionsPickLast | src/world/World.ts:92-99 | after the traversal's selections the current rock is the last match, or unchanged when nothing matched |
| World.ShootRaySelectsLastMatch | src/world/World.ts:87-99 | after a ray, the current rock is the last rock one of the hit object's meshes selects, and none otherwise |
| World.AttachedRockIsSelectable | src/world/World.ts:92-97 | a ray through an attached rock's mesh selects that rock |
| Game.NewClient | src/Game.tsx:19-23 | the client starts as player 'single' with a model, no network, not started, in the Space world |
| Game.Classify | src/Game.tsx:94-108 | exactly one branch is chosen: connected, else state, else screenData, else clearWorld, else none |
| Game.StartNetwork | src/Game.tsx:51-55 | a new network is appended and becomes current; earlier networks are kept |
| Game.Dispatch | src/Game.tsx:93-108 | connected sets id and lead and starts a network; state updates the roster only with a network; screenData fills the HUD; clearWorld clears splatters; otherwise nothing |
| Game.StartIfRequested | src/Game.tsx:110-121 | started with a network and a known world sets the world and screen, starts the loop and shows the game; missing screen data throws after setting the world; otherwise nothing |
| Game.OnMessage | src/Game.tsx:86-122 | a primitive payload changes nothing, null throws without change, and networks are never dropped |
| Game.DisconnectGame | src/Game.tsx:43-49 | the current network is stopped and forgotten, others untouched; without one nothing changes |
| Game.OnSocketEvent | src/Game.tsx:81-132 | open changes nothing; error and close both disconnect |
| Game.Tick | src/game/Network.ts:28-44 | a wake of any network sends one snapshot from the shared engine and drains its shots |
| Game.UnrecognizedChangesNothing | src/Game.tsx:87-92 | text that is not JSON, or an object with no known key and no start, changes nothing |
| Game.ConnectedWinsOverState | src/Game.tsx:94-101 | a message with both connected and state applies only the handshake |
| Game.StateNeedsNetwork | src/Game.tsx:98-101 | a state message reaches updateState exactly when a network exists |
| Game.ClearWorldClears | src/Game.tsx:106-107 | a clearWorld message appends one clear-splatters event |
| Game.ConnectAndStartAtOnce | src/Game.tsx:93-120 | a message that connects and starts runs the network it has just created |
| Game.StartNeedsNetworkAndWorld | src/Game.tsx:110-111 | without a network or with an unknown world, started does nothing |
| Game.StartWithoutScreenThrows | src/Game.tsx:112-117 | a start without screen dimensions throws after the world name is set, and the game does not start |
| Game.ErrorAndCloseDisconnect | src/Game.tsx:124-132 | error and close have the same effect, and a second one changes nothing |
| Game.ReconnectKeepsOldLoop | src/Game.tsx:94-97 | a second handshake leaves the earlier network running, and a later disconnect does not stop it |
| Game.DisconnectEndsSending | src/Game.tsx:43-49 | after a disconnect, the stopped network's loops each send at most once more |

## Left out

- Rendering and scene setup are not modelled: renderers, CSS planes, stats, decal geometry, the name label and the GLTF loader. Their scene effects appear only as hook events.
- The octree's `capsuleIntersect` and `sphereIntersect`, and the raycaster, are not modelled. They are passed-in oracles, or a list of hit mesh uuids.
- `Math.exp`, `Math.sqrt`, `normalize` and `Math.random` are not modelled. They are parameters, and all arithmetic is over exact reals, so nothing here speaks of IEEE rounding, NaN or infinities.
- Timers are not modelled. The send loop's `setTimeout` and `Utils.delay` become explicit wake steps on an integer clock. Interleavings with other events are whatever order the wake steps are applied in.
- JSON text encoding, the socket's `send`, and the exception `runClient` catches around it are not modelled. A send always succeeds and is recorded as a `Sent` entry.
- React's state batching and closure capture are not modelled. A handler is taken to see the state its previous handler left.
- `GameOptions.tsx` is UI forms and is not part of this model.
- The mouseup-to-shoot wiring and `mousedown`'s `mouseTime` are not modelled. `Shoot` and `ThrowBall` take the time and random values as inputs.
- `AnimatedModel.updateModel`'s pose copy and `mixer.update` are not modelled. Only the weight blend is.
- JavaScript `Map` insertion order is not modelled. Unloads are one event carrying the set of departed ids, not one call per id.
- The explosion's one-second expiry filter is not modelled. Only the explosion appended by `destroyRock` is.
- The `rockData` payload a rock carries is not modelled. It is only drawn as a label.
- The `this.player` tests in `teleportPlayerIfOob` (src/game/Engine.ts:65) and `Network.updateState` (src/game/Network.ts:69) are not modelled, because the engine always holds a player.
- World.AttachMesh: a rock is identified with the registry's copy by value, not by object identity, and the `RocksSet` payloads already in the effects log keep the rock as it was when the setter was called.
- Network.IntervalOrDefault: does not model NaN or non-numeric intervals, which `||` also maps to 100; intervals are integers.
- Game.OnMessage: does not model message values of the wrong JSON type (a `connected` that is not a string, a `state` that is not an object). Each key is typed as the code reads it.
- Engine.SphereWorldStep: states only that the radius is kept. The world bounce depends on the octree oracle, and the spheres are never created (`createSpheres` is commented out).
- Engine.UpdateSpheres: does not state the per-sphere bounce or damping, for the same reason.
- Substep: with spheres present, the local player's velocity is pinned only through `SpheresWithPlayer`, whose world bounce rests on the octree oracle; the program never creates spheres.
- Animate: the local player's end-of-frame state is stated only when there are no spheres, which is the only case the program reaches. With spheres, each substep's sphere pair pass is a method, so no closed form of five substeps is given.

=== FILE: animation.dfy ===
/** The animation blend of a player model (src/game/AnimatedModel.ts): three
    clip actions, idle, walk and run, whose weights follow the player's speed. */
module AnimatedModel {
  import opened Wrappers

  /** The state of one `THREE.AnimationAction` that this code touches. */
  datatype Action = Action(weight: real, timeScale: real, enabled: bool, paused: bool, playing: bool)

  /** The `actions` array once the glTF file has loaded: `[idle, walk, run]`. */
  datatype ActionSet = ActionSet(idle: Action, walk: Action, run: Action)

  /** An animated model. Before the asynchronous load completes, `actions` is
      the empty array, modelled as `None`. */
  datatype Model = Model(meshPath: string, actions: Option<ActionSet>)

  /** The highest speed the blend distinguishes. */
  const MaxSpeed: real := 6.0

  /** A freshly created action, as `mixer.clipAction` returns it. */
  const FreshAction: Action := Action(1.0, 1.0, true, false, false)

  /** `new AnimatedModel(meshPath)`: no actions yet. */
  function NewModel(meshPath: string): (m: Model)
    ensures m.meshPath == meshPath && m.actions.None?
  {
    Model(meshPath, None)
  }

  /** The `idleAction`, `walkAction` and `runAction` getters: `actions[0]`,
      `actions[1]` and `actions[2]`, each `undefined` before loading. */
  function IdleAction(m: Model): (a: Option<Action>)
    ensures a.Some? <==> m.actions.Some?
    ensures a.Some? ==> a.value == m.actions.value.idle
  {
    if m.actions.Some? then Some(m.actions.value.idle) else None
  }

  function WalkAction(m: Model): (a: Option<Action>)
    ensures a.Some? <==> m.actions.Some?
    ensures a.Some? ==> a.value == m.actions.value.walk
  {
    if m.actions.Some? then Some(m.actions.value.walk) else None
  }

  function RunAction(m: Model): (a: Option<Action>)
    ensures a.Some? <==> m.actions.Some?
    ensures a.Some? ==> a.value == m.actions.value.run
  {
    if m.actions.Some? then Some(m.actions.value.run) else None
  }

  /** `setWeight(action, w)`: enable the action at time scale 1 with weight `w`. */
  function SetWeight(a: Action, w: real): (r: Action)
    ensures r.weight == w && r.enabled && r.timeScale == 1.0
    ensures r.paused == a.paused && r.playing == a.playing
  {
    a.(weight := w, timeScale := 1.0, enabled := true)
  }

  /** `action.play()`: the action runs; weight, scale and pause flag are kept. */
  function Play(a: Action): (r: Action)
    ensures r.playing
    ensures r.weight == a.weight && r.timeScale == a.timeScale && r.paused == a.paused
  {
    a.(playing := true)
  }

  /** `activateAllActions()`: idle at full weight, walk and run at zero, all
      playing. Before loading, `setWeight(undefined, 1)` throws. */
  function ActivateAllActions(m: Model): (r: Result<Model>)
    ensures r.Ok? <==> m.actions.Some?
    ensures r.Ok? ==> r.value.meshPath == m.meshPath && r.value.actions.Some?
    ensures r.Ok? ==> var s := r.value.actions.value;
      s.idle.weight == 1.0 && s.walk.weight == 0.0 && s.run.weight == 0.0
      && s.idle.playing && s.walk.playing && s.run.playing
      && s.idle.enabled && s.walk.enabled && s.run.enabled
    ensures r.Ok? ==> var s := r.value.actions.value; var old_ := m.actions.value;
      s.idle.paused == old_.idle.paused && s.walk.paused == old_.walk.paused
      && s.run.paused == old_.run.paused
  {
    match m.actions
    case None => Thrown("Cannot set properties of undefined (setting 'enabled')")
    case Some(s) =>
      Ok(m.(actions := Some(ActionSet(
        Play(SetWeight(s.idle, 1.0)), Play(SetWeight(s.walk, 0.0)), Play(SetWeight(s.run, 0.0))))))
  }

  /** The callback of `loadModel`: the three clips become the actions, and all
      of them are activated. */
  function CompleteLoad(m: Model, idle: Action, walk: Action, run: Action): (r: Model)
    ensures r.meshPath == m.meshPath && r.actions.Some?
    ensures r.actions.value.idle.weight == 1.0 && r.actions.value.walk.weight == 0.0
      && r.actions.value.run.weight == 0.0
  {
    var loaded := m.(actions := Some(ActionSet(idle, walk, run)));
    ActivateAllActions(loaded).value
  }

  /** `pauseAllActions(pause)` */
  function PauseAll(s: ActionSet, pause: bool): (r: ActionSet)
    ensures r.idle.paused == pause && r.walk.paused == pause && r.run.paused == pause
    ensures r.idle.weight == s.idle.weight && r.walk.weight == s.walk.weight
      && r.run.weight == s.run.weight
  {
    ActionSet(s.idle.(paused := pause), s.walk.(paused := pause), s.run.(paused := pause))
  }

  /** `pauseContinue()`: resume everything when idle is paused, otherwise pause
      everything. Before loading, reading `idleAction.paused` throws. */
  function PauseContinue(m: Model): (r: Result<Model>)
    ensures r.Ok? <==> m.actions.Some?
    ensures r.Ok? ==> r.value.meshPath == m.meshPath && r.value.actions.Some?
    ensures r.Ok? ==> var s := r.value.actions.value; var p := !m.actions.value.idle.paused;
      s.idle.paused == p && s.walk.paused == p && s.run.paused == p
  {
    match m.actions
    case None => Thrown("Cannot read properties of undefined (reading 'paused')")
    case Some(s) => Ok(m.(actions := Some(PauseAll(s, !s.idle.paused))))
  }

  /** When the three actions agree on being paused, pausing-or-continuing twice
      restores the model. */
  lemma PauseContinueTwice(m: Model)
    requires m.actions.Some?
    requires m.actions.value.idle.paused == m.actions.value.walk.paused == m.actions.value.run.paused
    ensures PauseContinue(m).Ok? && PauseContinue(PauseContinue(m).value) == Ok(m)
  {
  }

  /** The speed the blend uses: anything above 6 counts as 6. */
  function ClampSpeed(speed: real): (s: real)
    ensures s <= MaxSpeed
    ensures speed <= MaxSpeed ==> s == speed
  {
    if speed > MaxSpeed then MaxSpeed else speed
  }

  /** `updateAction(speed)`: blend idle and run by the clamped speed; walk is
      never touched, and nothing happens before loading. */
  function UpdateAction(m: Model, speed: real): (r: Model)
    ensures m.actions.None? ==> r == m
    ensures r.meshPath == m.meshPath && (r.actions.Some? <==> m.actions.Some?)
    ensures r.actions.Some? ==> var s := r.actions.value;
      && s.idle.weight + s.run.weight == 1.0
      && s.walk == m.actions.value.walk
      && s.run.weight * MaxSpeed == ClampSpeed(speed)
    ensures r.actions.Some? && speed >= 0.0 ==> var s := r.actions.value;
      0.0 <= s.idle.weight <= 1.0 && 0.0 <= s.run.weight <= 1.0
  {
    match m.actions
    case None => m
    case Some(s) =>
      var clamped := ClampSpeed(speed);
      m.(actions := Some(s.(idle := SetWeight(s.idle, (MaxSpeed - clamped) / MaxSpeed),
                            run := SetWeight(s.run, clamped / MaxSpeed))))
  }

  /** Speeds above 6 all blend alike: they give the same weights as 6. */
  lemma UpdateActionSaturates(m: Model, speed: real)
    requires speed > MaxSpeed
    ensures UpdateAction(m, speed) == UpdateAction(m, MaxSpeed)
  {
  }
}

=== FILE: collisions.dfy ===
/** Collision response (src/game/Engine.ts:72-130): a player capsule against
    the static world, a player against a dynamic sphere, and spheres against
    each other. All dynamic bodies have equal mass. */
module Collisions {
  import opened Wrappers
  import opened Vectors
  import opened Player

  /** What the octree answers for an intersecting shape: the push-out
      direction and the penetration depth. */
  datatype Contact = Contact(normal: Vec3, depth: real)

  /** A dynamic sphere (`Model` in src/Types.ts, without its mesh). */
  datatype Sphere = Sphere(center: Vec3, radius: real, velocity: Vec3)

  /** `playerCollisions(player)`, given the octree's answer for the player's
      capsule. A contact counts as floor only when its normal points strictly
      up; against anything else the velocity slides along the surface. The
      capsule is always pushed out of the penetration. */
  function PlayerCollisions(p: Player, contact: Option<Contact>): (r: Player)
    ensures contact.None? ==> r == p.(onFloor := false)
    ensures contact.Some? ==> var n := contact.value.normal;
      && r.onFloor == (n.y > 0.0)
      && r.collider == Translate(p.collider, Scale(n, contact.value.depth))
      && (n.y > 0.0 ==> r.velocity == p.velocity)
      && (n.y <= 0.0 && IsUnit(n) ==> Dot(r.velocity, n) == 0.0)
    ensures SameShape(r.collider, p.collider)
    ensures r == p.(onFloor := r.onFloor, velocity := r.velocity, collider := r.collider)
  {
    match contact
    case None => p.(onFloor := false)
    case Some(c) =>
      var onFloor := c.normal.y > 0.0;
      var v := if onFloor then p.velocity else AddScaled(p.velocity, c.normal, -Dot(c.normal, p.velocity));
      assert IsUnit(c.normal) ==> Dot(AddScaled(p.velocity, c.normal, -Dot(c.normal, p.velocity)), c.normal) == 0.0 by {
        if IsUnit(c.normal) {
          RemoveNormalComponent(p.velocity, c.normal);
        }
      }
      p.(onFloor := onFloor, velocity := v, collider := Translate(p.collider, Scale(c.normal, c.depth)))
  }

  /** `v1 += proj(v2, n) - proj(v1, n)` and symmetrically for `v2`: the
      velocity components along `n` are exchanged. */
  function Exchange(v1: Vec3, v2: Vec3, n: Vec3): (r: (Vec3, Vec3))
    ensures Add(r.0, r.1) == Add(v1, v2)
  {
    var p1 := Scale(n, Dot(n, v1));
    var p2 := Scale(n, Dot(n, v2));
    (Sub(Add(v1, p2), p1), Sub(Add(v2, p1), p2))
  }

  /** Along a unit normal, the exchange swaps the two velocity components. */
  lemma ExchangeSwapsNormalParts(v1: Vec3, v2: Vec3, n: Vec3)
    requires IsUnit(n)
    ensures Dot(Exchange(v1, v2, n).0, n) == Dot(v2, n)
    ensures Dot(Exchange(v1, v2, n).1, n) == Dot(v1, n)
  {
    var p1 := Scale(n, Dot(n, v1));
    var p2 := Scale(n, Dot(n, v2));
    DotScale(n, Dot(n, v1), n);
    DotScale(n, Dot(n, v2), n);
    DotSymmetric(n, v1);
    DotSymmetric(n, v2);
    DotAdd(v1, p2, n);
    DotSub(Add(v1, p2), p1, n);
    DotAdd(v2, p1, n);
    DotSub(Add(v2, p1), p2, n);
  }

  /** The state threaded through the three sample points of
      `playerSphereCollision`: both velocities, the sphere centre, and the
      scratch vector `vectors.vector1`, which holds the capsule midpoint and is
      then overwritten by every contact normal. */
  datatype SampleState = SampleState(playerVelocity: Vec3, sphere: Sphere, scratch: Vec3)

  /** One sample point against the sphere. The contact normal is written into
      the scratch vector; the correction moves only the sphere. */
  function SamplePoint(st: SampleState, point: Vec3, r: real, math: MathLib): (out: SampleState)
    ensures Add(out.playerVelocity, out.sphere.velocity) == Add(st.playerVelocity, st.sphere.velocity)
    ensures out.sphere.radius == st.sphere.radius
    ensures DistanceSquared(point, st.sphere.center) >= r * r ==> out == st
  {
    var d2 := DistanceSquared(point, st.sphere.center);
    if d2 < r * r then
      var normal := math.normalize(Sub(point, st.sphere.center));
      var ex := Exchange(st.playerVelocity, st.sphere.velocity, normal);
      var d := (r - math.sqrt(d2)) / 2.0;
      SampleState(ex.0, st.sphere.(velocity := ex.1, center := AddScaled(st.sphere.center, normal, -d)), normal)
    else st
  }

  /** `playerSphereCollision(player, sphere, vectors)`. The player is
      approximated by three points: the capsule's start, its end, and whatever
      `vectors.vector1` holds when the third point is sampled, which is the
      midpoint only if neither end touched the sphere. Velocity is exchanged
      between player and sphere, and only the sphere is moved. */
  function PlayerSphereCollision(p: Player, s: Sphere, math: MathLib): (r: (Player, Sphere))
    ensures Add(r.0.velocity, r.1.velocity) == Add(p.velocity, s.velocity)
    ensures r.0 == p.(velocity := r.0.velocity)
    ensures r.1.radius == s.radius
  {
    var rad := p.collider.radius + s.radius;
    var st0 := SampleState(p.velocity, s, Scale(Add(p.collider.start, p.collider.end), 0.5));
    var st1 := SamplePoint(st0, p.collider.start, rad, math);
    var st2 := SamplePoint(st1, p.collider.end, rad, math);
    var st3 := SamplePoint(st2, st2.scratch, rad, math);
    (p.(velocity := st3.playerVelocity), st3.sphere)
  }

  /** The midpoint of the capsule, the third sample point when the ends miss. */
  function Midpoint(c: Capsule): Vec3 {
    Scale(Add(c.start, c.end), 0.5)
  }

  /** When no sample point is within the combined radius, nothing changes. */
  lemma PlayerSphereNoTouch(p: Player, s: Sphere, math: MathLib)
    requires var r := p.collider.radius + s.radius;
      && DistanceSquared(p.collider.start, s.center) >= r * r
      && DistanceSquared(p.collider.end, s.center) >= r * r
      && DistanceSquared(Midpoint(p.collider), s.center) >= r * r
    ensures PlayerSphereCollision(p, s, math) == (p, s)
  {
    var rad := p.collider.radius + s.radius;
    var st0 := SampleState(p.velocity, s, Midpoint(p.collider));
    assert st0.sphere == s;
    assert DistanceSquared(p.collider.start, st0.sphere.center) >= rad * rad;
    assert SamplePoint(st0, p.collider.start, rad, math) == st0;
    assert SamplePoint(st0, p.collider.end, rad, math) == st0;
    assert SamplePoint(st0, st0.scratch, rad, math) == st0;
  }

  /** The third sample point is not the midpoint once an end has touched: it is
      the normal of that contact. */
  lemma ThirdPointIsLastNormal(p: Player, s: Sphere, math: MathLib)
    requires var r := p.collider.radius + s.radius;
      DistanceSquared(p.collider.start, s.center) < r * r
    requires var r := p.collider.radius + s.radius;
      DistanceSquared(p.collider.end, SamplePoint(SampleState(p.velocity, s, Midpoint(p.collider)), p.collider.start, r, math).sphere.center) >= r * r
    ensures var r := p.collider.radius + s.radius;
      SamplePoint(SampleState(p.velocity, s, Midpoint(p.collider)), p.collider.start, r, math).scratch
        == math.normalize(Sub(p.collider.start, s.center))
  {
  }

  /** The pair step of `spheresCollisions`: overlapping spheres exchange their
      normal velocities and are pushed apart by half the overlap each. */
  function CollidePair(s1: Sphere, s2: Sphere, math: MathLib): (r: (Sphere, Sphere))
    ensures Add(r.0.velocity, r.1.velocity) == Add(s1.velocity, s2.velocity)
    ensures Add(r.0.center, r.1.center) == Add(s1.center, s2.center)
    ensures r.0.radius == s1.radius && r.1.radius == s2.radius
    ensures DistanceSquared(s1.center, s2.center) >= (s1.radius + s2.radius) * (s1.radius + s2.radius)
      ==> r == (s1, s2)
  {
    var d2 := DistanceSquared(s1.center, s2.center);
    var rad := s1.radius + s2.radius;
    if d2 < rad * rad then
      var normal := math.normalize(Sub(s1.center, s2.center));
      var ex := Exchange(s1.velocity, s2.velocity, normal);
      var d := (rad - math.sqrt(d2)) / 2.0;
      (Sphere(AddScaled(s1.center, normal, d), s1.radius, ex.0),
       Sphere(AddScaled(s2.center, normal, -d), s2.radius, ex.1))
    else (s1, s2)
  }

  /** With a unit normal, an overlapping pair swaps its velocity components along it. */
  lemma CollidePairSwapsNormalVelocity(s1: Sphere, s2: Sphere, math: MathLib)
    requires DistanceSquared(s1.center, s2.center) < (s1.radius + s2.radius) * (s1.radius + s2.radius)
    requires IsUnit(math.normalize(Sub(s1.center, s2.center)))
    ensures var n := math.normalize(Sub(s1.center, s2.center));
      && Dot(CollidePair(s1, s2, math).0.velocity, n) == Dot(s2.velocity, n)
      && Dot(CollidePair(s1, s2, math).1.velocity, n) == Dot(s1.velocity, n)
  {
    ExchangeSwapsNormalParts(s1.velocity, s2.velocity, math.normalize(Sub(s1.center, s2.center)));
  }

  /** Two spheres of radius 0.2 meeting head-on at unit speed along x bounce
      straight back. */
  lemma HeadOnSpheresReverse(math: MathLib)
    requires math.normalize(Vec3(-0.2, 0.0, 0.0)) == Vec3(-1.0, 0.0, 0.0)
    ensures var r := CollidePair(Sphere(Vec3(-0.1, 0.0, 0.0), 0.2, Vec3(1.0, 0.0, 0.0)),
                                 Sphere(Vec3(0.1, 0.0, 0.0), 0.2, Vec3(-1.0, 0.0, 0.0)), math);
      r.0.velocity == Vec3(-1.0, 0.0, 0.0) && r.1.velocity == Vec3(1.0, 0.0, 0.0)
  {
    var s1 := Sphere(Vec3(-0.1, 0.0, 0.0), 0.2, Vec3(1.0, 0.0, 0.0));
    var s2 := Sphere(Vec3(0.1, 0.0, 0.0), 0.2, Vec3(-1.0, 0.0, 0.0));
    assert Sub(s1.center, s2.center) == Vec3(-0.2, 0.0, 0.0);
    assert DistanceSquared(s1.center, s2.center) == 0.04;
    assert (s1.radius + s2.radius) * (s1.radius + s2.radius) == 0.16;
    CollidePairExchanges(s1, s2, math);
    HeadOnExchange();
  }

  lemma CollidePairExchanges(s1: Sphere, s2: Sphere, math: MathLib)
    requires DistanceSquared(s1.center, s2.center) < (s1.radius + s2.radius) * (s1.radius + s2.radius)
    ensures var ex := Exchange(s1.velocity, s2.velocity, math.normalize(Sub(s1.center, s2.center)));
      CollidePair(s1, s2, math).0.velocity == ex.0 && CollidePair(s1, s2, math).1.velocity == ex.1
  {
  }

  lemma HeadOnExchange()
    ensures Exchange(Vec3(1.0, 0.0, 0.0), Vec3(-1.0, 0.0, 0.0), Vec3(-1.0, 0.0, 0.0))
      == (Vec3(-1.0, 0.0, 0.0), Vec3(1.0, 0.0, 0.0))
  {
    var n := Vec3(-1.0, 0.0, 0.0);
    assert Dot(n, Vec3(1.0, 0.0, 0.0)) == -1.0;
    assert Dot(n, Vec3(-1.0, 0.0, 0.0)) == 1.0;
    assert Scale(n, -1.0) == Vec3(1.0, 0.0, 0.0);
    assert Scale(n, 1.0) == n;
  }

  /** The sum of `f` over the spheres. */
  function SumOf(s: seq<Sphere>, f: Sphere -> Vec3): Vec3
    decreases |s|
  {
    if |s| == 0 then Zero else Add(SumOf(s[..|s| - 1], f), f(s[|s| - 1]))
  }

  function VelocityOf(b: Sphere): Vec3 { b.velocity }
  function CenterOf(b: Sphere): Vec3 { b.center }

  /** Replacing one sphere changes the sum by the difference. */
  lemma {:induction false} SumOfUpdate(s: seq<Sphere>, i: int, b: Sphere, f: Sphere -> Vec3)
    requires 0 <= i < |s|
    ensures Add(SumOf(s[i := b], f), f(s[i])) == Add(SumOf(s, f), f(b))
    decreases |s|
  {
    var n := |s| - 1;
    if i == n {
      assert s[i := b][..n] == s[..n];
    } else {
      assert s[i := b][..n] == s[..n][i := b];
      SumOfUpdate(s[..n], i, b, f);
    }
  }

  /** Replacing two spheres whose `f` values keep their sum keeps the total. */
  lemma SumOfPairUpdate(s: seq<Sphere>, i: int, j: int, a: Sphere, b: Sphere, f: Sphere -> Vec3)
    requires 0 <= i < |s| && 0 <= j < |s| && i != j
    requires Add(f(a), f(b)) == Add(f(s[i]), f(s[j]))
    ensures SumOf(s[i := a][j := b], f) == SumOf(s, f)
  {
    SumOfUpdate(s, i, a, f);
    SumOfUpdate(s[i := a], j, b, f);
    assert s[i := a][j] == s[j];
  }

  /** `spheresCollisions(vectors)`: every unordered pair `i < j`, in order,
      against the spheres as updated so far. */
  method SpheresCollisions(spheres: seq<Sphere>, math: MathLib) returns (r: seq<Sphere>)
    ensures |r| == |spheres|
    ensures forall k :: 0 <= k < |r| ==> r[k].radius == spheres[k].radius
    ensures SumOf(r, VelocityOf) == SumOf(spheres, VelocityOf)
    ensures SumOf(r, CenterOf) == SumOf(spheres, CenterOf)
  {
    r := spheres;
    var i := 0;
    while i < |r|
      invariant 0 <= i <= |r| == |spheres|
      invariant forall k :: 0 <= k < |r| ==> r[k].radius == spheres[k].radius
      invariant SumOf(r, VelocityOf) == SumOf(spheres, VelocityOf)
      invariant SumOf(r, CenterOf) == SumOf(spheres, CenterOf)
    {
      var j := i + 1;
      while j < |r|
        invariant i < j <= |r| == |spheres|
        invariant forall k :: 0 <= k < |r| ==> r[k].radius == spheres[k].radius
        invariant SumOf(r, VelocityOf) == SumOf(spheres, VelocityOf)
        invariant SumOf(r, CenterOf) == SumOf(spheres, CenterOf)
      {
        var pair := CollidePair(r[i], r[j], math);
        SumOfPairUpdate(r, i, j, pair.0, pair.1, VelocityOf);
        SumOfPairUpdate(r, i, j, pair.0, pair.1, CenterOf);
        r := r[i := pair.0][j := pair.1];
        j := j + 1;
      }
      i := i + 1;
    }
  }
}

=== FILE: controls.dfy ===
/** Keyboard and mouse controls (src/game/Controls.ts): the set of held keys,
    the mouse look, and the per-substep velocity change they cause. */
module Controls {
  import opened Vectors
  import opened Player

  /** A `keydown` or `keyup` event with its `event.code`. */
  datatype KeyEvent = KeyDown(code: string) | KeyUp(code: string)

  /** The `keydown` and `keyup` listeners: insert or delete the code. */
  function OnKey(keys: set<string>, ev: KeyEvent): (r: set<string>)
    ensures ev.KeyDown? ==> ev.code in r
    ensures ev.KeyUp? ==> ev.code !in r
    ensures forall c :: c != ev.code ==> (c in r <==> c in keys)
  {
    match ev
    case KeyDown(code) => keys + {code}
    case KeyUp(code) => keys - {code}
  }

  /** The key set after a sequence of events, processed first to last. */
  function OnKeys(keys: set<string>, evs: seq<KeyEvent>): set<string>
    decreases |evs|
  {
    if |evs| == 0 then keys else OnKeys(OnKey(keys, evs[0]), evs[1..])
  }

  /** Whether `code` is held after `evs`: the last event about it was a key
      press, or there was none and it was held before. */
  predicate Held(keys: set<string>, evs: seq<KeyEvent>, code: string)
    decreases |evs|
  {
    if |evs| == 0 then code in keys
    else if evs[|evs| - 1].code == code then evs[|evs| - 1].KeyDown?
    else Held(keys, evs[..|evs| - 1], code)
  }

  lemma {:induction false} OnKeysSnoc(keys: set<string>, evs: seq<KeyEvent>, ev: KeyEvent)
    ensures OnKeys(keys, evs + [ev]) == OnKey(OnKeys(keys, evs), ev)
    decreases |evs|
  {
    if |evs| == 0 {
      assert OnKeys(keys, [ev]) == OnKeys(OnKey(keys, ev), []);
    } else {
      assert (evs + [ev])[1..] == evs[1..] + [ev];
      OnKeysSnoc(OnKey(keys, evs[0]), evs[1..], ev);
    }
  }

  /** The key set is exactly the set of keys currently held. */
  lemma {:induction false} KeySetIsHeldKeys(keys: set<string>, evs: seq<KeyEvent>, code: string)
    ensures code in OnKeys(keys, evs) <==> Held(keys, evs, code)
    decreases |evs|
  {
    if |evs| > 0 {
      var init := evs[..|evs| - 1];
      var last := evs[|evs| - 1];
      assert evs == init + [last];
      OnKeysSnoc(keys, init, last);
      KeySetIsHeldKeys(keys, init, code);
    }
  }

  /** The look limit: the camera pitch stays strictly inside (-1.5, 1.5). */
  const PitchLimit: real := 1.5

  /** The `mousemove` listener while the pointer is locked: yaw always follows
      the mouse, and a pitch is committed only when it is strictly inside the limit. */
  function OnMouseMove(rotation: Euler, movementX: real, movementY: real, locked: bool): (r: Euler)
    ensures !locked ==> r == rotation
    ensures locked ==> r.y == rotation.y - movementX / 500.0
    ensures r.z == rotation.z && r.order == rotation.order
    ensures r.x == rotation.x || -PitchLimit < r.x < PitchLimit
    ensures locked && -PitchLimit < rotation.x - movementY / 500.0 < PitchLimit ==>
      r.x == rotation.x - movementY / 500.0
  {
    if !locked then rotation
    else
      var turned := rotation.(y := rotation.y - movementX / 500.0);
      var verticalLook := rotation.x - movementY / 500.0;
      if verticalLook < PitchLimit && verticalLook > -PitchLimit then turned.(x := verticalLook) else turned
  }

  /** A pitch that starts inside the limit stays inside it whatever the mouse does. */
  lemma PitchStaysInRange(rotation: Euler, movementX: real, movementY: real, locked: bool)
    requires -PitchLimit < rotation.x < PitchLimit
    ensures -PitchLimit < OnMouseMove(rotation, movementX, movementY, locked).x < PitchLimit
  {
  }

  /** The camera's view of the world that `controls` reads: its world direction
      and its up vector. */
  datatype View = View(worldDirection: Vec3, up: Vec3)

  /** `getForwardVector()`: the normalised camera direction. */
  function Forward(view: View, math: MathLib): Vec3 {
    math.normalize(view.worldDirection)
  }

  /** `getSideVector()`: the horizontal camera direction, normalised, crossed with up. */
  function Side(view: View, math: MathLib): Vec3 {
    Cross(math.normalize(view.worldDirection.(y := 0.0)), view.up)
  }

  /** `speedDelta`: strong acceleration on the floor, weak air control. */
  function SpeedDelta(dt: real, onFloor: bool): (d: real)
    ensures onFloor ==> d == dt * 25.0
    ensures !onFloor ==> d == dt * 8.0
  {
    dt * (if onFloor then 25.0 else 8.0)
  }

  /** The launch speed of a jump. */
  const JumpSpeed: real := 15.0

  /** One movement key: the getter writes its vector into `player.direction`,
      `multiplyScalar` scales that same vector in place, and it is added to the velocity. */
  function Push(p: Player, pressed: bool, v: Vec3, k: real): (r: Player)
    ensures !pressed ==> r == p
    ensures pressed ==> r.velocity == Add(p.velocity, Scale(v, k)) && r.direction == Scale(v, k)
    ensures r.onFloor == p.onFloor && r.collider == p.collider
  {
    if pressed then p.(direction := Scale(v, k), velocity := Add(p.velocity, Scale(v, k))) else p
  }

  /** What one movement key contributes to the velocity: its vector times `k`
      while the key is held, nothing otherwise. */
  function KeyThrust(held: bool, v: Vec3, k: real): Vec3 {
    if held then Scale(v, k) else Zero
  }

  /** The total velocity change the movement keys ask for in one call: forward
      for W, backward for S, against the side vector for A and along it for D,
      each `d` long in its direction's units. */
  function Thrust(keys: set<string>, d: real, view: View, math: MathLib): Vec3 {
    var f := Forward(view, math);
    var s := Side(view, math);
    Add(Add(KeyThrust("KeyW" in keys, f, d), KeyThrust("KeyS" in keys, f, -d)),
        Add(KeyThrust("KeyA" in keys, s, -d), KeyThrust("KeyD" in keys, s, d)))
  }

  /** `player.direction` after the movement keys: the scaled vector of the last
      key handled (D, then A, then S, then W), since each getter overwrites it;
      untouched when no movement key is held. */
  function LastDirection(p: Player, keys: set<string>, d: real, view: View, math: MathLib): Vec3 {
    if "KeyD" in keys then Scale(Side(view, math), d)
    else if "KeyA" in keys then Scale(Side(view, math), -d)
    else if "KeyS" in keys then Scale(Forward(view, math), -d)
    else if "KeyW" in keys then Scale(Forward(view, math), d)
    else p.direction
  }

  /** `controls(deltaTime)`: W and S push along the camera direction, A and D
      along the side vector; Space on the floor sets (not adds) an upward speed of 15. */
  function ApplyControls(p: Player, keys: set<string>, dt: real, view: View, math: MathLib): (r: Player)
    ensures r.collider == p.collider && r.onFloor == p.onFloor && r.position == p.position
    ensures r.playerID == p.playerID && r.orientation == p.orientation && r.model == p.model
    ensures r.playerName == p.playerName && r.isLead == p.isLead
    ensures !(p.onFloor && "Space" in keys) ==>
      r.velocity == Add(p.velocity, Thrust(keys, SpeedDelta(dt, p.onFloor), view, math))
    ensures p.onFloor && "Space" in keys ==>
      r.velocity == Add(p.velocity, Thrust(keys, SpeedDelta(dt, p.onFloor), view, math)).(y := JumpSpeed)
    ensures r.direction == LastDirection(p, keys, SpeedDelta(dt, p.onFloor), view, math)
    ensures p.onFloor && "Space" in keys ==> r.velocity.y == JumpSpeed
    ensures (&& "KeyW" !in keys && "KeyS" !in keys && "KeyA" !in keys && "KeyD" !in keys
             && !(p.onFloor && "Space" in keys)) ==> r == p
  {
    var d := SpeedDelta(dt, p.onFloor);
    var p1 := Push(p, "KeyW" in keys, Forward(view, math), d);
    var p2 := Push(p1, "KeyS" in keys, Forward(view, math), -d);
    var p3 := Push(p2, "KeyA" in keys, Side(view, math), -d);
    var p4 := Push(p3, "KeyD" in keys, Side(view, math), d);
    ThrustSums(p.velocity, keys, d, view, math);
    if p4.onFloor && "Space" in keys then p4.(velocity := p4.velocity.(y := JumpSpeed)) else p4
  }

  /** Adding the four key contributions one after another is adding their sum. */
  lemma ThrustSums(u: Vec3, keys: set<string>, d: real, view: View, math: MathLib)
    ensures var f := Forward(view, math);
      var s := Side(view, math);
      Add(Add(Add(Add(u, KeyThrust("KeyW" in keys, f, d)), KeyThrust("KeyS" in keys, f, -d)),
              KeyThrust("KeyA" in keys, s, -d)), KeyThrust("KeyD" in keys, s, d))
        == Add(u, Thrust(keys, d, view, math))
  {
  }

  /** Space in the air has no jump effect: the velocity is just the sum of the
      pushes, whatever its y. */
  lemma NoJumpInAir(p: Player, dt: real, view: View, math: MathLib)
    requires !p.onFloor
    ensures ApplyControls(p, {"Space"}, dt, view, math) == p
  {
  }

  /** A push followed by the opposite push restores the velocity. */
  lemma PushThenOpposite(p: Player, pressed: bool, v: Vec3, k: real)
    ensures Push(Push(p, pressed, v, k), pressed, v, -k).velocity == p.velocity
  {
    if pressed {
      var u := p.velocity;
      assert Add(Add(u, Scale(v, k)), Scale(v, -k)) == u;
    }
  }

  /** Opposite keys cancel: W with S, and A with D, leave the velocity as it was. */
  lemma OppositeKeysCancel(p: Player, keys: set<string>, dt: real, view: View, math: MathLib)
    requires "KeyW" in keys <==> "KeyS" in keys
    requires "KeyA" in keys <==> "KeyD" in keys
    requires !(p.onFloor && "Space" in keys)
    ensures ApplyControls(p, keys, dt, view, math).velocity == p.velocity
  {
    var d := SpeedDelta(dt, p.onFloor);
    var p1 := Push(p, "KeyW" in keys, Forward(view, math), d);
    var p2 := Push(p1, "KeyS" in keys, Forward(view, math), -d);
    PushThenOpposite(p, "KeyW" in keys, Forward(view, math), d);
    var p3 := Push(p2, "KeyA" in keys, Side(view, math), -d);
    var p4 := Push(p3, "KeyD" in keys, Side(view, math), d);
    PushThenOpposite(p2, "KeyA" in keys, Side(view, math), -d);
    assert -(-d) == d;
  }
}

=== FILE: engine.dfy ===
/** The game engine (src/game/Engine.ts): the per-frame substep loop, the
    dynamic spheres, and the outgoing shot queue. Rendering, decals and stats
    are not part of this model. */
module Engine {
  import opened Wrappers
  import opened Vectors
  import opened Types
  import opened Player
  import Utils
  import Controls
  import Collisions

  /** `Engine.GRAVITY`: the engine runs with gravity switched off. */
  const Gravity: real := 0.0
  const StepsPerFrame: nat := 5
  /** The longest frame time simulated; a longer stall is cut to this. */
  const MaxFrameTime: real := 0.05
  /** Below this camera height the player is sent back to the spawn pose. */
  const OutOfBoundsY: real := -25.0

  datatype Camera = Camera(position: Vec3, rotation: Euler)

  /** What the `Controls` object holds: the keys down and the time of the last mouse press. */
  datatype ControlState = ControlState(keys: set<string>, mouseTime: real)

  /** The calls the engine makes into rendering and asset loading, in order. */
  datatype Hook =
    | LoadModel(playerID: string)
    | UnloadModels(playerIDs: set<string>)
    | Splatter(origin: SimpleVector, direction: SimpleVector, color: real)
    | ClearSplatters

  datatype Engine = Engine(
    player: Player,
    players: map<string, Player>,
    spheres: seq<Collisions.Sphere>,
    sphereIdx: int,
    shots: seq<Shot>,
    camera: Option<Camera>,
    controls: Option<ControlState>,
    hasRenderer: bool,
    hasScene: bool,
    hooks: seq<Hook>)

  /** The outside world the frame loop consults: the floating-point library,
      the octree, and the camera's world direction for a given rotation. */
  datatype Env = Env(
    math: MathLib,
    capsuleQuery: Capsule -> Option<Collisions.Contact>,
    sphereQuery: Collisions.Sphere -> Option<Collisions.Contact>,
    cameraDirection: Euler -> Vec3,
    cameraUp: Vec3)

  /** `new Engine(player)`: no remote players, no shots, nothing attached yet. */
  function NewEngine(player: Player): (e: Engine)
    ensures e.player == player && e.players == map[] && e.shots == [] && e.hooks == []
    ensures e.camera.None? && e.controls.None? && !e.hasRenderer && !e.hasScene
  {
    Engine(player, map[], [], 0, [], None, None, false, false, [])
  }

  /** `animate` runs only once the controls, camera, renderer and scene exist. */
  predicate Ready(e: Engine) {
    e.controls.Some? && e.camera.Some? && e.hasRenderer && e.hasScene
  }

  /** The substep length of a frame: the frame time, capped at 50 ms, split in five. */
  function FrameDt(delta: real): (dt: real)
    ensures dt <= 0.01
    ensures delta >= 0.0 ==> dt >= 0.0
    ensures dt * (StepsPerFrame as real) == (if delta < MaxFrameTime then delta else MaxFrameTime)
  {
    (if delta < MaxFrameTime then delta else MaxFrameTime) / (StepsPerFrame as real)
  }

  /** `updatePlayers(deltaTime)`: every remote player is integrated with no
      gravity: its velocity is damped and its capsule moves by the new velocity. */
  function UpdatePlayers(players: map<string, Player>, dt: real, math: MathLib): (r: map<string, Player>)
    ensures r.Keys == players.Keys
    ensures forall id :: id in r ==>
      && r[id].velocity == Damped(players[id].velocity, players[id].onFloor, dt, Gravity, math.exp(-4.0 * dt))
      && Sub(r[id].collider.end, players[id].collider.end) == Scale(r[id].velocity, dt)
    ensures forall id :: id in r ==> SameShape(r[id].collider, players[id].collider)
    ensures forall id :: id in r ==> r[id].playerName == players[id].playerName
  {
    map id | id in players :: UpdatePlayer(players[id], dt, Gravity, math)
  }

  /** A remote player after `n` substeps of length `dt`. */
  function StepPlayer(p: Player, dt: real, math: MathLib, n: nat): (r: Player)
    ensures SameShape(r.collider, p.collider)
    ensures r.playerName == p.playerName
  {
    if n == 0 then p else UpdatePlayer(StepPlayer(p, dt, math, n - 1), dt, Gravity, math)
  }

  /** One more substep of every remote player. */
  lemma StepPlayersOnce(start: map<string, Player>, before: map<string, Player>, after: map<string, Player>,
                        dt: real, math: MathLib, n: nat)
    requires before.Keys == start.Keys
    requires forall id :: id in before ==> before[id] == StepPlayer(start[id], dt, math, n)
    requires after == UpdatePlayers(before, dt, math)
    ensures after.Keys == start.Keys
    ensures forall id :: id in after ==> after[id] == StepPlayer(start[id], dt, math, n + 1)
  {
    forall id | id in after
      ensures after[id] == StepPlayer(start[id], dt, math, n + 1)
    {
      assert after[id] == UpdatePlayer(before[id], dt, Gravity, math);
    }
  }

  /** The world half of `updateSpheres` for one sphere: move it, bounce it off
      the octree (or let gravity act), then damp it. */
  function SphereWorldStep(s: Collisions.Sphere, dt: real, env: Env): (r: Collisions.Sphere)
    ensures r.radius == s.radius
  {
    var moved := s.(center := AddScaled(s.center, s.velocity, dt));
    var bounced := match env.sphereQuery(moved)
      case Some(c) =>
        moved.(velocity := AddScaled(moved.velocity, c.normal, -Dot(c.normal, moved.velocity) * 1.5),
               center := Add(moved.center, Scale(c.normal, c.depth)))
      case None => moved.(velocity := moved.velocity.(y := moved.velocity.y - Gravity * dt));
    var damping := env.math.exp(-1.5 * dt) - 1.0;
    bounced.(velocity := AddScaled(bounced.velocity, bounced.velocity, damping))
  }

  /** The `forEach` of `updateSpheres`: each sphere in turn takes its world step
      and is then collided with the player. */
  function SpheresWithPlayer(p: Player, spheres: seq<Collisions.Sphere>, dt: real, env: Env)
    : (r: (Player, seq<Collisions.Sphere>))
    ensures |r.1| == |spheres|
    ensures r.0 == p.(velocity := r.0.velocity)
    ensures forall k :: 0 <= k < |spheres| ==> r.1[k].radius == spheres[k].radius
    decreases |spheres|
  {
    if |spheres| == 0 then (p, [])
    else
      var hit := Collisions.PlayerSphereCollision(p, SphereWorldStep(spheres[0], dt, env), env.math);
      var rest := SpheresWithPlayer(hit.0, spheres[1..], dt, env);
      (rest.0, [hit.1] + rest.1)
  }

  /** `updateSpheres(deltaTime)`: the per-sphere pass, then every pair. The
      player's capsule is never moved by spheres. */
  method UpdateSpheres(p: Player, spheres: seq<Collisions.Sphere>, dt: real, env: Env)
    returns (p': Player, spheres': seq<Collisions.Sphere>)
    ensures |spheres'| == |spheres|
    ensures p' == SpheresWithPlayer(p, spheres, dt, env).0
    ensures p' == p.(velocity := p'.velocity)
    ensures spheres == [] ==> p' == p && spheres' == []
    ensures forall k :: 0 <= k < |spheres| ==> spheres'[k].radius == spheres[k].radius
  {
    var pass := SpheresWithPlayer(p, spheres, dt, env);
    p' := pass.0;
    spheres' := Collisions.SpheresCollisions(pass.1, env.math);
  }

  /** `teleportPlayerIfOob()`, given that the camera sits on the capsule's upper end. */
  function TeleportIfOob(p: Player, cam: Camera): (r: (Player, Camera))
    ensures cam.position.y <= OutOfBoundsY ==>
      && r.0 == p.(collider := InitializeCollider(p.collider))
      && r.1 == Camera(r.0.collider.end, Euler(0.0, 0.0, 0.0, cam.rotation.order))
    ensures cam.position.y > OutOfBoundsY ==> r == (p, cam)
  {
    if cam.position.y <= OutOfBoundsY then
      var reset := p.(collider := InitializeCollider(p.collider));
      (reset, Camera(reset.collider.end, cam.rotation.(x := 0.0, y := 0.0, z := 0.0)))
    else (p, cam)
  }

  /** The out-of-bounds check settles in one go: the spawn pose is far above
      the threshold, so checking again changes nothing. */
  lemma TeleportIfOobIdempotent(p: Player, cam: Camera)
    ensures var once := TeleportIfOob(p, cam);
      TeleportIfOob(once.0, once.1) == once
  {
  }

  /** The local player's own part of a substep: the held keys, the yaw taken
      from the camera, integration without gravity, and the world collision. */
  function MovePlayer(p: Player, keys: set<string>, cam: Camera, dt: real, env: Env): (r: Player)
    ensures r.playerID == p.playerID && r.playerName == p.playerName
    ensures r.orientation == p.orientation.(y := cam.rotation.y)
  {
    var view := Controls.View(env.cameraDirection(cam.rotation), env.cameraUp);
    var p1 := Controls.ApplyControls(p, keys, dt, view, env.math);
    var p2 := p1.(orientation := p1.orientation.(y := cam.rotation.y));
    var p3 := UpdatePlayer(p2, dt, Gravity, env.math);
    Collisions.PlayerCollisions(p3, env.capsuleQuery(p3.collider))
  }

  /** A substep of the local player and the camera when there are no spheres:
      the player moves, the camera follows to the capsule's upper end, and the
      out-of-bounds check may send both back to the spawn pose. */
  function LocalStep(p: Player, cam: Camera, keys: set<string>, dt: real, env: Env): (r: (Player, Camera))
    ensures r.1.position == r.0.collider.end
    ensures r.0.playerID == p.playerID
  {
    var moved := MovePlayer(p, keys, cam, dt, env);
    TeleportIfOob(moved, cam.(position := moved.collider.end))
  }

  /** The local player and the camera after `n` substeps with no spheres. */
  function StepLocal(p: Player, cam: Camera, keys: set<string>, dt: real, env: Env, n: nat): (r: (Player, Camera))
    ensures n > 0 ==> r.1.position == r.0.collider.end
  {
    if n == 0 then (p, cam) else
      var prior := StepLocal(p, cam, keys, dt, env, n - 1);
      LocalStep(prior.0, prior.1, keys, dt, env)
  }

  /** One substep of `animate`: controls, orientation from the camera yaw,
      integration, the world collision, the remote players, the camera, the
      spheres, and the out-of-bounds check, in that order. The spheres change
      only the local player's velocity, and the camera ends on the capsule's
      upper end. */
  method Substep(e: Engine, dt: real, env: Env) returns (r: Engine)
    requires Ready(e)
    ensures Ready(r)
    ensures r.players == UpdatePlayers(e.players, dt, env.math)
    ensures var cam := e.camera.value;
      var moved := MovePlayer(e.player, e.controls.value.keys, cam, dt, env);
      var back := TeleportIfOob(moved, cam.(position := moved.collider.end));
      && r.player == back.0.(velocity := r.player.velocity)
      && r.player.velocity == SpheresWithPlayer(moved, e.spheres, dt, env).0.velocity
      && r.camera == Some(back.1)
    ensures e.spheres == [] ==>
      (r.player, r.camera.value) == LocalStep(e.player, e.camera.value, e.controls.value.keys, dt, env) && r.spheres == []
    ensures r.camera.value.position == r.player.collider.end
    ensures StandardShape(e.player.collider) ==> StandardShape(r.player.collider)
    ensures |r.spheres| == |e.spheres|
    ensures r == e.(player := r.player, players := r.players, spheres := r.spheres, camera := r.camera)
  {
    var cam := e.camera.value;
    var p4 := MovePlayer(e.player, e.controls.value.keys, cam, dt, env);
    var players := UpdatePlayers(e.players, dt, env.math);
    var cam1 := cam.(position := p4.collider.end);
    var p5, spheres := UpdateSpheres(p4, e.spheres, dt, env);
    var back := TeleportIfOob(p5, cam1);
    r := e.(player := back.0, players := players, spheres := spheres, camera := Some(back.1));
  }

  /** The frame so far: `n` substeps of length `dt` taken from `start`. With no
      spheres the local player and the camera are `StepLocal`'s. */
  predicate SteppedFrom(start: Engine, r: Engine, dt: real, env: Env, n: nat)
    requires Ready(start)
  {
    && Ready(r)
    && r.players.Keys == start.players.Keys
    && (forall id :: id in r.players ==> r.players[id] == StepPlayer(start.players[id], dt, env.math, n))
    && (n > 0 ==> r.camera.value.position == r.player.collider.end)
    && (start.spheres == [] ==>
          (r.player, r.camera.value) == StepLocal(start.player, start.camera.value, start.controls.value.keys, dt, env, n))
    && (StandardShape(start.player.collider) ==> StandardShape(r.player.collider))
    && r.shots == start.shots && r.hooks == start.hooks && |r.spheres| == |start.spheres|
    && r.controls == start.controls && r.player.playerID == start.player.playerID
  }

  /** One more substep of a frame in progress. */
  method NextSubstep(ghost start: Engine, e: Engine, dt: real, env: Env, ghost n: nat) returns (r: Engine)
    requires Ready(start) && SteppedFrom(start, e, dt, env, n)
    ensures SteppedFrom(start, r, dt, env, n + 1)
  {
    r := Substep(e, dt, env);
    StepPlayersOnce(start.players, e.players, r.players, dt, env.math, n);
  }

  /** `n` substeps of length `dt` in a row. */
  method Substeps(e: Engine, dt: real, env: Env, n: nat) returns (r: Engine)
    requires Ready(e)
    ensures SteppedFrom(e, r, dt, env, n)
  {
    r := e;
    var i := 0;
    while i < n
      invariant 0 <= i <= n
      invariant SteppedFrom(e, r, dt, env, i)
    {
      r := NextSubstep(e, r, dt, env, i);
      i := i + 1;
    }
  }

  /** `animate()`: nothing without controls, camera, renderer and scene;
      otherwise five substeps of `FrameDt(delta)`. */
  method Animate(e: Engine, delta: real, env: Env) returns (r: Engine)
    ensures !Ready(e) ==> r == e
    ensures Ready(e) ==> forall id :: id in r.players && id in e.players ==>
      r.players[id] == StepPlayer(e.players[id], FrameDt(delta), env.math, StepsPerFrame)
    ensures Ready(e) ==> Ready(r) && r.camera.value.position == r.player.collider.end
    ensures Ready(e) && e.spheres == [] ==>
      (r.player, r.camera.value) == StepLocal(e.player, e.camera.value, e.controls.value.keys, FrameDt(delta), env, StepsPerFrame)
    ensures r.players.Keys == e.players.Keys
    ensures forall id :: id in r.players ==> SameShape(r.players[id].collider, e.players[id].collider)
    ensures StandardShape(e.player.collider) ==> StandardShape(r.player.collider)
    ensures r.shots == e.shots && r.hooks == e.hooks && |r.spheres| == |e.spheres|
    ensures r.controls == e.controls && r.player.playerID == e.player.playerID
  {
    if !Ready(e) {
      return e;
    }
    r := Substeps(e, FrameDt(delta), env, StepsPerFrame);
  }

  /** The throw's launch speed: 15, plus up to 30 more the longer the mouse
      was held before `now`. */
  function Impulse(mouseTime: real, now: real, math: MathLib): real {
    15.0 + 30.0 * (1.0 - math.exp((mouseTime - now) * 0.001))
  }

  /** `throwBall()`: the sphere at `sphereIdx` is launched from the player's
      eye along the camera direction, and the index moves on cyclically. The
      camera direction is written into `player.direction` first; an index with
      no sphere behind it then throws. The result says whether it threw. */
  function ThrowBall(e: Engine, now: real, env: Env): (r: (Engine, bool))
    ensures !(e.camera.Some? && e.controls.Some?) ==> r == (e, false)
    ensures r.1 <==> e.camera.Some? && e.controls.Some? && !(0 <= e.sphereIdx < |e.spheres|)
    ensures r.0 == e.(player := r.0.player, spheres := r.0.spheres, sphereIdx := r.0.sphereIdx)
    ensures e.camera.Some? && e.controls.Some? ==>
      r.0.player == e.player.(direction := env.cameraDirection(e.camera.value.rotation))
    ensures r.1 ==> r.0.spheres == e.spheres && r.0.sphereIdx == e.sphereIdx
    ensures |r.0.spheres| == |e.spheres|
    ensures e.camera.Some? && e.controls.Some? && !r.1 ==>
      var dir := env.cameraDirection(e.camera.value.rotation);
      var thrown := r.0.spheres[e.sphereIdx];
      && 0 <= r.0.sphereIdx < |r.0.spheres|
      && r.0.sphereIdx == (e.sphereIdx + 1) % |e.spheres|
      && thrown.radius == e.spheres[e.sphereIdx].radius
      && Sub(thrown.center, e.player.collider.end) == Scale(dir, e.player.collider.radius * 1.5)
      && Sub(thrown.velocity, Scale(dir, Impulse(e.controls.value.mouseTime, now, env.math))) == Scale(e.player.velocity, 2.0)
      && forall k :: 0 <= k < |e.spheres| && k != e.sphereIdx ==> r.0.spheres[k] == e.spheres[k]
  {
    if !(e.camera.Some? && e.controls.Some?) then (e, false)
    else
      var dir := env.cameraDirection(e.camera.value.rotation);
      var p := e.player.(direction := dir);
      if !(0 <= e.sphereIdx < |e.spheres|) then (e.(player := p), true)
      else
        var s := e.spheres[e.sphereIdx];
        var impulse := Impulse(e.controls.value.mouseTime, now, env.math);
        var launched := s.(center := AddScaled(p.collider.end, dir, p.collider.radius * 1.5),
                           velocity := AddScaled(Scale(dir, impulse), p.velocity, 2.0));
        (e.(player := p, spheres := e.spheres[e.sphereIdx := launched],
            sphereIdx := (e.sphereIdx + 1) % |e.spheres|), false)
  }

  /** `throwBall()` called `k` times at the same moment. */
  function ThrowMany(e: Engine, now: real, env: Env, k: nat): (r: Engine)
    ensures |r.spheres| == |e.spheres|
    ensures r.camera == e.camera && r.controls == e.controls
  {
    if k == 0 then e else ThrowBall(ThrowMany(e, now, env, k - 1), now, env).0
  }

  /** A non-zero multiple of a positive `n` is at least `n` away from zero. */
  lemma MulAwayFromZero(d: int, n: int)
    requires n > 0
    ensures d >= 1 ==> d * n >= n
    ensures d <= -1 ==> d * n <= -n
  {
    if d >= 1 {
      assert d * n == (d - 1) * n + n;
    } else if d <= -1 {
      assert d * n == (d + 1) * n - n;
    }
  }

  /** The remainder is the unique `m` in `[0, n)` with `x == q * n + m`. */
  lemma ModOf(x: int, n: int, q: int, m: int)
    requires n > 0 && 0 <= m < n && x == q * n + m
    ensures x % n == m
  {
    var d := q - x / n;
    assert d * n == x % n - m by {
      assert x == (x / n) * n + x % n;
      assert q * n - (x / n) * n == (q - x / n) * n;
    }
    MulAwayFromZero(d, n);
  }

  lemma ModSucc(a: int, n: int)
    requires n > 0
    ensures (a % n + 1) % n == (a + 1) % n
  {
    var q := a / n;
    var r := a % n;
    assert a == q * n + r;
    if r + 1 < n {
      ModOf(r + 1, n, 0, r + 1);
      ModOf(a + 1, n, q, r + 1);
    } else {
      assert a + 1 == (q + 1) * n;
      ModOf(r + 1, n, 1, 0);
      ModOf(a + 1, n, q + 1, 0);
    }
  }

  /** Throws take the spheres in turn: after `k` throws the index has moved on
      `k` places round the ring. */
  lemma {:induction false} ThrowsCycle(e: Engine, now: real, env: Env, k: nat)
    requires e.camera.Some? && e.controls.Some? && 0 <= e.sphereIdx < |e.spheres|
    ensures ThrowMany(e, now, env, k).sphereIdx == (e.sphereIdx + k) % |e.spheres|
  {
    if k > 0 {
      ThrowsCycle(e, now, env, k - 1);
      ModSucc(e.sphereIdx + k - 1, |e.spheres|);
    } else {
      ModOf(e.sphereIdx, |e.spheres|, 0, e.sphereIdx);
    }
  }

  /** A round of throws, one per sphere, brings the index back where it was:
      every sphere is thrown once per round. */
  lemma ThrowRoundReturns(e: Engine, now: real, env: Env)
    requires e.camera.Some? && e.controls.Some? && 0 <= e.sphereIdx < |e.spheres|
    ensures ThrowMany(e, now, env, |e.spheres|).sphereIdx == e.sphereIdx
  {
    ThrowsCycle(e, now, env, |e.spheres|);
    ModOf(e.sphereIdx + |e.spheres|, |e.spheres|, 1, e.sphereIdx);
  }

  /** `clearSplatters()`: take every paint decal out of the scene, once there is one. */
  function ClearAllSplatters(e: Engine): (r: Engine)
    ensures e.hasScene ==> r.hooks == e.hooks + [ClearSplatters]
    ensures !e.hasScene ==> r == e
    ensures r == e.(hooks := r.hooks)
  {
    if e.hasScene then e.(hooks := e.hooks + [ClearSplatters]) else e
  }

  /** `shoot()`: with camera, scene and controls present, queue one shot from
      the camera along its direction, with colour `random * 0xffffff`, and
      paint it locally. */
  function Shoot(e: Engine, random: real, env: Env): (r: Engine)
    ensures !(e.camera.Some? && e.hasScene && e.controls.Some?) ==> r == e
    ensures e.camera.Some? && e.hasScene && e.controls.Some? ==>
      && |r.shots| == |e.shots| + 1 && r.shots[..|e.shots|] == e.shots
      && r.shots[|e.shots|] == Shot(Utils.CreateVectorJSON(e.camera.value.position),
                                   Utils.CreateVectorJSON(env.cameraDirection(e.camera.value.rotation)),
                                   random * 16777215.0)
      && r.hooks == e.hooks + [Splatter(r.shots[|e.shots|].origin, r.shots[|e.shots|].direction, random * 16777215.0)]
    ensures r == e.(shots := r.shots, hooks := r.hooks)
  {
    if !(e.camera.Some? && e.hasScene && e.controls.Some?) then e
    else
      var origin := Utils.CreateVectorJSON(e.camera.value.position);
      var direction := Utils.CreateVectorJSON(env.cameraDirection(e.camera.value.rotation));
      var color := random * 16777215.0;
      e.(shots := e.shots + [Shot(origin, direction, color)],
         hooks := e.hooks + [Splatter(origin, direction, color)])
  }

  /** The reference reversal of a sequence. */
  function Reverse<T>(s: seq<T>): (r: seq<T>)
    ensures |r| == |s|
    decreases |s|
  {
    if |s| == 0 then [] else [s[|s| - 1]] + Reverse(s[..|s| - 1])
  }

  lemma {:induction false} ReverseIndex<T>(s: seq<T>, i: int)
    requires 0 <= i < |s|
    ensures Reverse(s)[i] == s[|s| - 1 - i]
    decreases |s|
  {
    if i > 0 {
      ReverseIndex(s[..|s| - 1], i - 1);
    }
  }

  /** The drain loop of `createStateMessage`: pop until empty, pushing each
      popped shot onto the message, so the newest shot comes first. */
  method DrainShots(queue: seq<Shot>) returns (drained: seq<Shot>, rest: seq<Shot>)
    ensures rest == []
    ensures drained == Reverse(queue)
    ensures forall i :: 0 <= i < |queue| ==> drained[i] == queue[|queue| - 1 - i]
  {
    drained := [];
    rest := queue;
    while |rest| > 0
      invariant drained + Reverse(rest) == Reverse(queue)
      decreases |rest|
    {
      var top := rest[|rest| - 1];
      assert Reverse(rest) == [top] + Reverse(rest[..|rest| - 1]);
      drained := drained + [top];
      rest := rest[..|rest| - 1];
    }
    forall i | 0 <= i < |queue|
      ensures drained[i] == queue[|queue| - 1 - i]
    {
      ReverseIndex(queue, i);
    }
  }

  /** `createStateMessage()`: the local player's snapshot, carrying every queued
      shot newest first, and an empty queue afterwards. */
  function CreateStateMessage(e: Engine): (r: (SimplePlayer, Engine))
    ensures r.1 == e.(shots := [])
    ensures r.0.shots == Reverse(e.shots)
    ensures r.0.playerID == e.player.playerID && r.0.playerName == e.player.playerName
    ensures Utils.SetVector(Zero, r.0.position) == e.player.collider.end
    ensures Utils.SetVector(Zero, r.0.velocity) == e.player.velocity
    ensures Utils.SetVector(Zero, r.0.direction) == e.player.direction
    ensures Utils.SetEuler(e.player.orientation, r.0.orientation) == e.player.orientation
  {
    var msg := SimplePlayer(
      e.player.playerID, e.player.playerName,
      Utils.CreateVectorJSON(e.player.collider.end),
      Utils.CreateVectorJSON(e.player.velocity),
      Utils.CreateEulerJSON(e.player.orientation),
      Utils.CreateVectorJSON(e.player.direction),
      Reverse(e.shots));
    (msg, e.(shots := []))
  }

  /** A shot fired just before a snapshot is its first shot. */
  lemma ShootThenSnapshot(e: Engine, random: real, env: Env)
    requires e.camera.Some? && e.hasScene && e.controls.Some?
    ensures var shot := Shoot(e, random, env).shots[|e.shots|];
      var msg := CreateStateMessage(Shoot(e, random, env)).0;
      |msg.shots| == |e.shots| + 1 && msg.shots[0] == shot && msg.shots[1..] == Reverse(e.shots)
  {
    var s := Shoot(e, random, env).shots;
    assert s[..|s| - 1] == e.shots;
  }
}

=== FILE: game.dfy ===
/** The game client's socket handlers (src/Game.tsx): the dispatch of inbound
    messages on their keys, the creation of a `Network` per handshake, the start
    of the game, and the disconnection on socket error or close. React state is
    a plain record; a state update is visible to the next message. */
module Game {
  import opened Wrappers
  import opened Vectors
  import opened Types
  import Utils
  import Player
  import Engine
  import Network

  /** The value of the `connected` key and its companions: our id, whether we
      lead, and the send interval the server asks for. */
  datatype Handshake = Handshake(id: string, isLead: bool, interval: Option<int>)

  /** An inbound JSON object, reduced to the keys the handler reads. The first
      four count when present; `started` counts when truthy. */
  datatype Message = Message(
    connected: Option<Handshake>,
    state: Option<State>,
    screenData: Option<string>,
    clearWorld: bool,
    started: bool,
    world: Option<string>,
    screenDimensions: Option<SimpleVector>,
    screenPos: Option<SimpleVector>)

  /** What parsing a frame yields. Text that is not JSON falls back to the text
      itself, a primitive; JSON `null` is the one value whose key test throws. */
  datatype Payload = JsonObject(message: Message) | JsonPrimitive | JsonNull

  /** Which of the exclusive branches a message takes. */
  datatype Kind = Connected | StateUpdate | ScreenData | ClearWorld | Unrecognized

  /** The client: the engine, every `Network` created so far (a new handshake
      does not stop the previous one), which of them is the current `network`,
      and the React state the handlers set. */
  datatype Client = Client(
    engine: Engine.Engine,
    sessions: seq<Network.Session>,
    network: Option<nat>,
    gameStarted: bool,
    worldName: string,
    hudMounted: bool,
    hud: string,
    screenDimensions: (real, real),
    screenPos: Vec3)

  /** The outcome of a handler: the new client, and whether the handler threw
      part way (the updates made before the throw stay). */
  datatype Handled = Handled(client: Client, threw: bool)

  /** Socket events the client subscribes to. */
  datatype SocketEvent = Open | Frame(payload: Payload) | Error | Close

  /** The current network, when there is one, is one of the sessions. */
  predicate Valid(c: Client) {
    c.network.Some? ==> c.network.value < |c.sessions|
  }

  /** The client as mounted: the local player 'single' with the soldier model,
      no network, the game not started, the Space world. */
  function NewClient(hudMounted: bool): (c: Client)
    ensures Valid(c) && c.network.None? && c.sessions == [] && !c.gameStarted
    ensures c.engine.player.playerID == "single" && c.engine.player.model.Some?
    ensures Utils.CheckEnum(Utils.WorldName, c.worldName)
  {
    var player := Player.NewPlayer("single", "Your Name", Some("Soldier.glb"));
    Client(Engine.NewEngine(player), [], None, false, "Space", hudMounted, "", (0.0, 0.0), Zero)
  }

  /** The key tests, in order: `connected`, then `state`, then `screenData`,
      then `clearWorld`; the first present key decides. */
  function Classify(m: Message): (k: Kind)
    ensures k == Connected <==> m.connected.Some?
    ensures k == StateUpdate <==> m.connected.None? && m.state.Some?
    ensures k == ScreenData <==> m.connected.None? && m.state.None? && m.screenData.Some?
    ensures k == ClearWorld <==> m.connected.None? && m.state.None? && m.screenData.None? && m.clearWorld
    ensures k == Unrecognized <==> m.connected.None? && m.state.None? && m.screenData.None? && !m.clearWorld
  {
    if m.connected.Some? then Connected
    else if m.state.Some? then StateUpdate
    else if m.screenData.Some? then ScreenData
    else if m.clearWorld then ClearWorld
    else Unrecognized
  }

  /** `startNetwork(interval)`: a new `Network` on the shared engine becomes the
      current one; earlier ones are kept as they are. */
  function StartNetwork(c: Client, interval: Option<int>, now: int): (r: Client)
    ensures r.sessions == c.sessions + [Network.NewSession(interval, now)]
    ensures r.network == Some(|c.sessions|)
    ensures Valid(r)
    ensures r == c.(sessions := r.sessions, network := r.network)
  {
    c.(sessions := c.sessions + [Network.NewSession(interval, now)], network := Some(|c.sessions|))
  }

  /** The exclusive branch of `onmessage`, and the network the `started` test
      then looks at: the one the handshake just created, or the current one. */
  function Dispatch(c: Client, m: Message, now: int): (r: (Client, Option<nat>))
    requires Valid(c)
    ensures Valid(r.0)
    ensures r.1 == r.0.network
    ensures Classify(m) == Connected ==> var h := m.connected.value;
      && r.0.engine == c.engine.(player := c.engine.player.(playerID := h.id, isLead := h.isLead))
      && r.0 == StartNetwork(c, h.interval, now).(engine := r.0.engine)
    ensures Classify(m) == StateUpdate ==>
      r.0 == (if c.network.Some? then c.(engine := Network.UpdateState(c.engine, m.state.value)) else c)
    ensures Classify(m) == ScreenData ==>
      r.0 == (if c.hudMounted then c.(hud := m.screenData.value) else c)
    ensures Classify(m) == ClearWorld ==> r.0 == c.(engine := Engine.ClearAllSplatters(c.engine))
    ensures Classify(m) == Unrecognized ==> r.0 == c
    ensures Classify(m) != Connected ==> r.0.sessions == c.sessions && r.0.network == c.network
  {
    match Classify(m)
    case Connected =>
      var h := m.connected.value;
      var player := c.engine.player.(playerID := h.id, isLead := h.isLead);
      var started := StartNetwork(c, h.interval, now);
      (started.(engine := c.engine.(player := player)), started.network)
    case StateUpdate =>
      (if c.network.Some? then c.(engine := Network.UpdateState(c.engine, m.state.value)) else c, c.network)
    case ScreenData =>
      (if c.hudMounted then c.(hud := m.screenData.value) else c, c.network)
    case ClearWorld =>
      (c.(engine := Engine.ClearAllSplatters(c.engine)), c.network)
    case Unrecognized =>
      (c, c.network)
  }

  /** The `started` test: with a network and a known world, set the world, the
      screen's size and place, start the network's send loop and show the game.
      Reading a missing screen size or place throws, after the world is set. */
  function StartIfRequested(c: Client, current: Option<nat>, m: Message, now: int): (r: Handled)
    requires Valid(c) && (current.Some? ==> current.value < |c.sessions|)
    ensures Valid(r.client)
    ensures !(m.started && current.Some? && m.world.Some? && Utils.CheckEnum(Utils.WorldName, m.world.value)) ==>
      r == Handled(c, false)
    ensures r.threw <==> (m.started && current.Some? && m.world.Some? && Utils.CheckEnum(Utils.WorldName, m.world.value)
      && (m.screenDimensions.None? || m.screenPos.None?))
    ensures r.threw ==> r.client.worldName == m.world.value && r.client.sessions == c.sessions && r.client.gameStarted == c.gameStarted
    ensures (m.started && current.Some? && m.world.Some? && Utils.CheckEnum(Utils.WorldName, m.world.value)
      && m.screenDimensions.Some? && m.screenPos.Some?) ==>
      && !r.threw
      && r.client.gameStarted && r.client.worldName == m.world.value
      && r.client.sessions == c.sessions[current.value := Network.StartClient(c.sessions[current.value], now)]
      && r.client.screenDimensions == (m.screenDimensions.value.x, m.screenDimensions.value.y)
      && r.client.screenPos == Vec3(m.screenPos.value.x, m.screenPos.value.y, m.screenPos.value.z)
    ensures r.client.engine == c.engine && r.client.network == c.network
  {
    if !(m.started && current.Some?) then Handled(c, false)
    else if !(m.world.Some? && Utils.CheckEnum(Utils.WorldName, m.world.value)) then Handled(c, false)
    else
      var named := c.(worldName := m.world.value);
      if m.screenDimensions.None? then Handled(named, true)
      else
        var dims := m.screenDimensions.value;
        var sized := named.(screenDimensions := (dims.x, dims.y));
        if m.screenPos.None? then Handled(sized, true)
        else
          var pos := m.screenPos.value;
          var placed := sized.(screenPos := Vec3(pos.x, pos.y, pos.z));
          var i := current.value;
          Handled(placed.(sessions := c.sessions[i := Network.StartClient(c.sessions[i], now)], gameStarted := true), false)
  }

  /** `client.onmessage`: parse, take the one branch the keys select, then
      consider starting. */
  function OnMessage(c: Client, p: Payload, now: int): (r: Handled)
    requires Valid(c)
    ensures Valid(r.client)
    ensures p.JsonPrimitive? ==> r == Handled(c, false)
    ensures p.JsonNull? ==> r == Handled(c, true)
    ensures p.JsonObject? && !r.threw ==> |r.client.sessions| >= |c.sessions|
  {
    match p
    case JsonNull => Handled(c, true)
    case JsonPrimitive => Handled(c, false)
    case JsonObject(m) =>
      var d := Dispatch(c, m, now);
      StartIfRequested(d.0, d.1, m, now)
  }

  /** `disconnectGame()`: stop the current network and forget it; without one,
      nothing happens. */
  function DisconnectGame(c: Client): (r: Client)
    requires Valid(c)
    ensures Valid(r) && r.network.None?
    ensures c.network.None? ==> r == c
    ensures c.network.Some? ==>
      && |r.sessions| == |c.sessions|
      && !r.sessions[c.network.value].running
      && r.sessions[c.network.value] == Network.StopClient(c.sessions[c.network.value])
      && forall i :: 0 <= i < |c.sessions| && i != c.network.value ==> r.sessions[i] == c.sessions[i]
    ensures r == c.(sessions := r.sessions, network := r.network)
  {
    if c.network.None? then c
    else
      var i := c.network.value;
      c.(sessions := c.sessions[i := Network.StopClient(c.sessions[i])], network := None)
  }

  /** The socket's handlers: `onopen` only logs, `onmessage` dispatches, and
      both `onerror` and `onclose` disconnect. */
  function OnSocketEvent(c: Client, ev: SocketEvent, now: int): (r: Handled)
    requires Valid(c)
    ensures Valid(r.client)
    ensures ev.Open? ==> r == Handled(c, false)
    ensures ev.Error? || ev.Close? ==> r == Handled(DisconnectGame(c), false)
  {
    match ev
    case Open => Handled(c, false)
    case Frame(p) => OnMessage(c, p, now)
    case Error => Handled(DisconnectGame(c), false)
    case Close => Handled(DisconnectGame(c), false)
  }

  /** Loop `k` of session `i` wakes: it sends from the shared engine. Every
      session, current or not, sends from the same engine. */
  function Tick(c: Client, i: nat, k: int, now: int, after: int): (r: Client)
    requires i < |c.sessions| && 0 <= k < |c.sessions[i].pending| && c.sessions[i].pending[k] <= now <= after
    ensures |r.sessions| == |c.sessions| && r.network == c.network
    ensures r.engine == c.engine.(shots := [])
    ensures r.sessions[i].outbox == c.sessions[i].outbox + [Network.Sent(now, Engine.CreateStateMessage(c.engine).0)]
    ensures forall j :: 0 <= j < |c.sessions| && j != i ==> r.sessions[j] == c.sessions[j]
  {
    var w := Network.Wake(c.sessions[i], c.engine, k, now, after);
    c.(sessions := c.sessions[i := w.0], engine := w.1)
  }

  // Properties of the dispatch.

  /** A payload that is not an object holding a key the handler knows changes
      nothing: text that is not JSON, and objects with no known key. */
  lemma UnrecognizedChangesNothing(c: Client, p: Payload, now: int)
    requires Valid(c)
    requires p.JsonPrimitive? || (p.JsonObject? && Classify(p.message) == Unrecognized && !p.message.started)
    ensures OnMessage(c, p, now) == Handled(c, false)
  {
  }

  /** A handshake wins over every other key: a `state` in the same message is
      not applied, whatever networks exist. */
  lemma ConnectedWinsOverState(c: Client, m: Message, now: int)
    requires Valid(c) && m.connected.Some? && m.state.Some?
    ensures var r := OnMessage(c, JsonObject(m), now).client;
      && r.engine.players == c.engine.players
      && r.engine.player.playerID == m.connected.value.id
      && r.engine.player.isLead == m.connected.value.isLead
      && r.network == Some(|c.sessions|)
      && |r.sessions| == |c.sessions| + 1
  {
  }

  /** A `state` message is applied to the roster exactly when there is a network. */
  lemma StateNeedsNetwork(c: Client, m: Message, now: int)
    requires Valid(c) && Classify(m) == StateUpdate && !m.started
    ensures var r := OnMessage(c, JsonObject(m), now);
      && !r.threw
      && (c.network.None? ==> r.client == c)
      && (c.network.Some? ==> r.client == c.(engine := Network.UpdateState(c.engine, m.state.value)))
  {
  }

  /** A `clearWorld` message clears the splatters, and nothing else. */
  lemma ClearWorldClears(c: Client, m: Message, now: int)
    requires Valid(c) && Classify(m) == ClearWorld && !m.started && c.engine.hasScene
    ensures OnMessage(c, JsonObject(m), now).client.engine.hooks == c.engine.hooks + [Engine.ClearSplatters]
  {
  }

  /** A message that both connects and starts runs the network it creates. */
  lemma ConnectAndStartAtOnce(c: Client, m: Message, now: int)
    requires Valid(c) && m.connected.Some?
    requires m.started && m.world == Some("Space") && m.screenDimensions.Some? && m.screenPos.Some?
    ensures var r := OnMessage(c, JsonObject(m), now);
      && !r.threw && r.client.gameStarted && r.client.worldName == "Space"
      && r.client.network == Some(|c.sessions|)
      && |r.client.sessions| == |c.sessions| + 1
      && r.client.sessions[..|c.sessions|] == c.sessions
      && var s := r.client.sessions[|c.sessions|];
         s.running && |s.pending| == 1 && s.outbox == []
         && s.interval == Network.IntervalOrDefault(m.connected.value.interval)
  {
    Utils.WorldNameAcceptsOnlySpace("Space");
    var d := Dispatch(c, m, now);
    assert d.0.sessions[..|c.sessions|] == c.sessions;
  }

  /** Without a network, or with a world that is not a `WorldName`, `started`
      does nothing. */
  lemma StartNeedsNetworkAndWorld(c: Client, m: Message, now: int)
    requires Valid(c) && Classify(m) == Unrecognized && m.started
    requires c.network.None? || m.world.None? || m.world.value != "Space"
    ensures OnMessage(c, JsonObject(m), now) == Handled(c, false)
  {
    if m.world.Some? {
      Utils.WorldNameAcceptsOnlySpace(m.world.value);
    }
  }

  /** A start request without a screen size throws after setting the world:
      the send loop does not start and the game is not shown. */
  lemma StartWithoutScreenThrows(c: Client, m: Message, now: int)
    requires Valid(c) && Classify(m) == Unrecognized && c.network.Some? && !c.gameStarted
    requires m.started && m.world == Some("Space") && m.screenDimensions.None?
    ensures var r := OnMessage(c, JsonObject(m), now);
      && r.threw && r.client.worldName == "Space" && !r.client.gameStarted && r.client.sessions == c.sessions
  {
    Utils.WorldNameAcceptsOnlySpace("Space");
  }

  /** Error and close have the same effect, and repeating either changes nothing more. */
  lemma ErrorAndCloseDisconnect(c: Client, now: int)
    requires Valid(c)
    ensures OnSocketEvent(c, Error, now) == OnSocketEvent(c, Close, now)
    ensures var once := OnSocketEvent(c, Error, now).client;
      OnSocketEvent(once, Close, now).client == once
  {
  }

  /** A second handshake leaves the first network running: its loop is not
      stopped, and a later disconnect stops only the new one. */
  lemma ReconnectKeepsOldLoop(c: Client, m: Message, now: int)
    requires Valid(c) && c.network.Some? && c.sessions[c.network.value].running
    requires m.connected.Some? && !m.started
    ensures var r := OnMessage(c, JsonObject(m), now).client;
      var prior := c.network.value;
      && r.sessions[prior] == c.sessions[prior]
      && DisconnectGame(r).sessions[prior].running
  {
  }

  /** After a disconnect, each loop of the stopped network sends at most once
      more, whatever order the timers fire in. */
  lemma DisconnectEndsSending(c: Client, fs: seq<Network.Firing>)
    requires Valid(c) && c.network.Some?
    ensures var s := DisconnectGame(c).sessions[c.network.value];
      var r := Network.FireAll(s, c.engine, fs).0;
      !r.running && |r.outbox| <= |s.outbox| + |s.pending|
  {
    var s := DisconnectGame(c).sessions[c.network.value];
    Network.AtMostOneSendPerLoopAfterStop(s, c.engine, fs);
  }
}

=== FILE: network.dfy ===
/** The client side of the network protocol (src/game/Network.ts): the
    self-correcting send loop, and the reconciliation of the local roster of
    remote players with each inbound snapshot. Time is a logical clock in
    milliseconds; timers are explicit steps. */
module Network {
  import opened Wrappers
  import opened Vectors
  import opened Types
  import opened Player
  import Utils
  import Engine

  /** The interval used when none, or zero, is given. */
  const DefaultInterval: int := 100

  /** One message handed to the socket: when it was sent, and what. */
  datatype Sent = Sent(time: int, message: SimplePlayer)

  /** A `Network` object. Every `startClient` call starts its own send loop;
      `pending` holds, per live loop, the time its timer is due. */
  datatype Session = Session(
    interval: int,
    nextRunTime: int,
    running: bool,
    pending: seq<int>,
    outbox: seq<Sent>)

  /** `interval || 100`: a missing or zero interval falls back to 100. */
  function IntervalOrDefault(interval: Option<int>): (r: int)
    ensures interval.Some? && interval.value != 0 ==> r == interval.value
    ensures interval.None? || interval.value == 0 ==> r == DefaultInterval
  {
    if interval.Some? && interval.value != 0 then interval.value else DefaultInterval
  }

  /** `new Network(client, engine, interval)` at time `now`: not running, no loop. */
  function NewSession(interval: Option<int>, now: int): (s: Session)
    ensures s.interval == IntervalOrDefault(interval) && s.interval != 0
    ensures !s.running && s.pending == [] && s.outbox == [] && s.nextRunTime == now
  {
    Session(IntervalOrDefault(interval), now, false, [], [])
  }

  /** When a `setTimeout(f, delay)` armed at `now` fires: negative delays count as zero. */
  function TimerDue(now: int, delay: int): (t: int)
    ensures t >= now && t >= now + delay
    ensures delay >= 0 ==> t == now + delay
  {
    if delay < 0 then now else now + delay
  }

  /** `startClient()`: mark the session running and arm one more loop, due one
      interval from now. */
  function StartClient(s: Session, now: int): (r: Session)
    ensures r.running
    ensures r.pending == s.pending + [TimerDue(now, s.interval)]
    ensures r.interval == s.interval && r.outbox == s.outbox && r.nextRunTime == s.nextRunTime
  {
    s.(running := true, pending := s.pending + [TimerDue(now, s.interval)])
  }

  /** `stopClient()`: clear the flag; loops notice it after their next send. */
  function StopClient(s: Session): (r: Session)
    ensures !r.running
    ensures r == s.(running := false)
  {
    s.(running := false)
  }

  lemma StopClientIdempotent(s: Session)
    ensures StopClient(StopClient(s)) == StopClient(s)
  {
  }

  /** Loop `k`'s timer fires at `now`: one iteration of `runClient`. The
      deadline is taken as `now + interval` before the send; the send drains the
      engine's shots into one message; the send returns at `after`. Then the
      loop either sleeps until the deadline (at once if it has passed) or, when
      the session was stopped, exits. */
  function Wake(s: Session, e: Engine.Engine, k: int, now: int, after: int): (r: (Session, Engine.Engine))
    requires 0 <= k < |s.pending| && s.pending[k] <= now <= after
    ensures r.0.nextRunTime == now + s.interval
    ensures r.0.outbox == s.outbox + [Sent(now, Engine.CreateStateMessage(e).0)]
    ensures r.1 == e.(shots := [])
    ensures r.0.running == s.running && r.0.interval == s.interval
    ensures s.running ==> r.0.pending == s.pending[k := TimerDue(after, now + s.interval - after)]
    ensures !s.running ==> r.0.pending == s.pending[..k] + s.pending[k + 1..]
  {
    var next := Utils.OffsetTime(Utils.Date(now), s.interval).time;
    var built := Engine.CreateStateMessage(e);
    var sent := s.(nextRunTime := next, outbox := s.outbox + [Sent(now, built.0)]);
    if s.running then
      (sent.(pending := s.pending[k := TimerDue(after, next - after)]), built.1)
    else
      (sent.(pending := s.pending[..k] + s.pending[k + 1..]), built.1)
  }

  /** The loop keeps its cadence: a timer that fires on time, and a send that
      takes no longer than the interval, make the next wake exactly one
      interval after this one, whatever the send took. */
  lemma WakeKeepsCadence(s: Session, e: Engine.Engine, k: int, now: int, after: int)
    requires 0 <= k < |s.pending| && s.pending[k] == now <= after <= now + s.interval
    requires s.running
    ensures Wake(s, e, k, now, after).0.pending[k] == now + s.interval
  {
  }

  /** Loop `k` woken `|durations|` times, each time exactly when due, each send
      taking the given time. */
  function RunOnTime(s: Session, e: Engine.Engine, k: int, durations: seq<int>): (r: (Session, Engine.Engine))
    requires 0 <= k < |s.pending|
    requires forall i :: 0 <= i < |durations| ==> durations[i] >= 0
    ensures |r.0.pending| == |s.pending| || !s.running
    decreases |durations|
  {
    if |durations| == 0 || !s.running then (s, e)
    else
      var now := s.pending[k];
      var w := Wake(s, e, k, now, now + durations[0]);
      RunOnTime(w.0, w.1, k, durations[1..])
  }

  /** With sends no longer than the interval, the n-th send of a running loop
      happens exactly n intervals after its first: the schedule does not drift. */
  lemma {:induction false} RunOnTimeSchedule(s: Session, e: Engine.Engine, k: int, durations: seq<int>)
    requires 0 <= k < |s.pending| && s.running && s.interval > 0
    requires forall i :: 0 <= i < |durations| ==> 0 <= durations[i] <= s.interval
    ensures var r := RunOnTime(s, e, k, durations).0;
      && |r.outbox| == |s.outbox| + |durations|
      && (forall i :: 0 <= i < |durations| ==> r.outbox[|s.outbox| + i].time == s.pending[k] + i * s.interval)
      && r.pending[k] == s.pending[k] + |durations| * s.interval
    decreases |durations|
  {
    if |durations| > 0 {
      var now := s.pending[k];
      var w := Wake(s, e, k, now, now + durations[0]);
      WakeKeepsCadence(s, e, k, now, now + durations[0]);
      var rest := durations[1..];
      assert forall i :: 0 <= i < |rest| ==> rest[i] == durations[i + 1];
      RunOnTimeSchedule(w.0, w.1, k, rest);
      RunOnTimeKeepsOutbox(w.0, w.1, k, rest);
      var r := RunOnTime(w.0, w.1, k, rest).0;
      assert w.0.pending[k] == now + s.interval;
      assert w.0.outbox == s.outbox + [Sent(now, Engine.CreateStateMessage(e).0)];
      assert r == RunOnTime(s, e, k, durations).0;
      ScheduleExtends(s.outbox, w.0.outbox, r.outbox, now, s.interval, |rest|);
      Distribute(|rest|, s.interval);
    }
  }

  lemma Distribute(n: int, m: int)
    ensures n * m + m == (n + 1) * m
  {
  }

  /** The step of the schedule: a send at `first` followed by sends one
      interval apart from `first + interval` on are sends one interval apart
      from `first` on. */
  lemma ScheduleExtends(before: seq<Sent>, mid: seq<Sent>, after: seq<Sent>, first: int, interval: int, n: nat)
    requires |mid| == |before| + 1 && mid[|before|].time == first
    requires |after| == |mid| + n && after[..|mid|] == mid
    requires forall i :: 0 <= i < n ==> after[|mid| + i].time == first + interval + i * interval
    ensures forall i :: 0 <= i < n + 1 ==> after[|before| + i].time == first + i * interval
  {
    forall i | 0 <= i < n + 1
      ensures after[|before| + i].time == first + i * interval
    {
      if i == 0 {
        assert after[|before|] == after[..|mid|][|before|];
      } else {
        assert after[|mid| + (i - 1)].time == first + interval + (i - 1) * interval;
        assert (i - 1) * interval + interval == i * interval;
      }
    }
  }

  /** Running a loop only appends to the outbox. */
  lemma {:induction false} RunOnTimeKeepsOutbox(s: Session, e: Engine.Engine, k: int, durations: seq<int>)
    requires 0 <= k < |s.pending|
    requires forall i :: 0 <= i < |durations| ==> durations[i] >= 0
    ensures var r := RunOnTime(s, e, k, durations).0;
      |r.outbox| >= |s.outbox| && r.outbox[..|s.outbox|] == s.outbox
    decreases |durations|
  {
    if |durations| > 0 && s.running {
      var now := s.pending[k];
      var w := Wake(s, e, k, now, now + durations[0]);
      RunOnTimeKeepsOutbox(w.0, w.1, k, durations[1..]);
      var r := RunOnTime(w.0, w.1, k, durations[1..]).0;
      assert r.outbox[..|s.outbox|] == r.outbox[..|w.0.outbox|][..|s.outbox|];
    }
  }

  /** Once stopped, every timer firing sends once and ends its loop, so sends
      plus live loops stay constant: each loop makes at most one more send. */
  lemma WakeAfterStop(s: Session, e: Engine.Engine, k: int, now: int, after: int)
    requires 0 <= k < |s.pending| && s.pending[k] <= now <= after
    requires !s.running
    ensures var r := Wake(s, e, k, now, after).0;
      !r.running && |r.outbox| + |r.pending| == |s.outbox| + |s.pending| && |r.pending| == |s.pending| - 1
  {
  }

  /** A timer firing: which loop, when, and when its send returned. */
  datatype Firing = Firing(loop: int, now: int, after: int)

  /** Fire a sequence of timers in turn; a firing that names no live loop, or
      comes before the loop is due, is skipped. */
  function FireAll(s: Session, e: Engine.Engine, fs: seq<Firing>): (r: (Session, Engine.Engine))
    decreases |fs|
  {
    if |fs| == 0 then (s, e)
    else
      var f := fs[0];
      if 0 <= f.loop < |s.pending| && s.pending[f.loop] <= f.now <= f.after then
        var w := Wake(s, e, f.loop, f.now, f.after);
        FireAll(w.0, w.1, fs[1..])
      else FireAll(s, e, fs[1..])
  }

  /** After `stopClient`, whatever timers fire, the session sends at most one
      more message per loop that was live when it stopped, and never restarts. */
  lemma {:induction false} AtMostOneSendPerLoopAfterStop(s: Session, e: Engine.Engine, fs: seq<Firing>)
    requires !s.running
    ensures var r := FireAll(s, e, fs).0;
      !r.running && |r.outbox| + |r.pending| == |s.outbox| + |s.pending|
      && |r.outbox| <= |s.outbox| + |s.pending|
    decreases |fs|
  {
    if |fs| > 0 {
      var f := fs[0];
      if 0 <= f.loop < |s.pending| && s.pending[f.loop] <= f.now <= f.after {
        var w := Wake(s, e, f.loop, f.now, f.after);
        WakeAfterStop(s, e, f.loop, f.now, f.after);
        AtMostOneSendPerLoopAfterStop(w.0, w.1, fs[1..]);
      } else {
        AtMostOneSendPerLoopAfterStop(s, e, fs[1..]);
      }
    }
  }

  /** `setPlayer(player, simple)`: name, capsule end, velocity, orientation and
      direction are overwritten from the snapshot (the capsule's start is not
      touched), and every shot in it is replayed as a splatter. */
  function SetPlayer(p: Player, simple: SimplePlayer): (r: (Player, seq<Engine.Hook>))
    ensures r.0.playerName == simple.playerName
    ensures Utils.CreateVectorJSON(r.0.collider.end) == simple.position
    ensures Utils.CreateVectorJSON(r.0.velocity) == simple.velocity
    ensures Utils.CreateEulerJSON(r.0.orientation) == simple.orientation
    ensures Utils.CreateVectorJSON(r.0.direction) == simple.direction
    ensures r.0.orientation.order == p.orientation.order
    ensures r.0.collider.start == p.collider.start && r.0.collider.radius == p.collider.radius
    ensures r.0.playerID == p.playerID && r.0.model == p.model && r.0.onFloor == p.onFloor
    ensures |r.1| == |simple.shots|
    ensures forall i :: 0 <= i < |simple.shots| ==> var shot := simple.shots[i];
      r.1[i] == Engine.Splatter(shot.origin, shot.direction, shot.color)
  {
    var updated := p.(playerName := simple.playerName,
                      collider := p.collider.(end := Utils.SetVector(p.collider.end, simple.position)),
                      velocity := Utils.SetVector(p.velocity, simple.velocity),
                      orientation := Utils.SetEuler(p.orientation, simple.orientation),
                      direction := Utils.SetVector(p.direction, simple.direction));
    (updated, Replay(simple.shots))
  }

  /** The splatter calls for a list of shots, in order. */
  function Replay(shots: seq<Shot>): (hooks: seq<Engine.Hook>)
    ensures |hooks| == |shots|
    ensures forall i :: 0 <= i < |shots| ==>
      hooks[i] == Engine.Splatter(shots[i].origin, shots[i].direction, shots[i].color)
  {
    seq(|shots|, i requires 0 <= i < |shots| => Engine.Splatter(shots[i].origin, shots[i].direction, shots[i].color))
  }

  /** The mesh every remote player is created with. */
  const RemoteModelPath: string := "Soldier.glb"

  /** The first loop of `updateState`, over the snapshot's entries: skip our
      own id, create and load unknown players, then overwrite from the snapshot. */
  function ApplyEntries(players: map<string, Player>, self: string, state: State)
    : (r: (map<string, Player>, seq<Engine.Hook>))
    decreases |state|
  {
    if |state| == 0 then (players, [])
    else
      var (id, simple) := state[0];
      if id == self then ApplyEntries(players, self, state[1..])
      else
        var created := id !in players;
        var current := if created then NewPlayer(id, simple.playerName, Some(RemoteModelPath)) else players[id];
        var loaded: seq<Engine.Hook> := if created then [Engine.LoadModel(id)] else [];
        var set_ := SetPlayer(current, simple);
        var rest := ApplyEntries(players[id := set_.0], self, state[1..]);
        (rest.0, loaded + set_.1 + rest.1)
  }

  /** The players the second loop of `updateState` unloads: known, not in the
      snapshot, and with a model. */
  function Departed(players: map<string, Player>, found: set<string>): (gone: set<string>)
    ensures forall id :: id in gone <==> id in players && id !in found && players[id].model.Some?
  {
    set id | id in players && id !in found && players[id].model.Some?
  }

  /** `updateState(state)`. Without a scene it does nothing. Otherwise it
      applies every entry but our own, then unloads and drops every player the
      snapshot no longer mentions. */
  function UpdateState(e: Engine.Engine, state: State): (r: Engine.Engine)
    ensures !e.hasScene ==> r == e
    ensures r == e.(players := r.players, hooks := r.hooks)
  {
    if !e.hasScene then e
    else
      var applied := ApplyEntries(e.players, e.player.playerID, state);
      var gone := Departed(applied.0, Ids(state));
      var unload: seq<Engine.Hook> := if gone == {} then [] else [Engine.UnloadModels(gone)];
      e.(players := applied.0 - gone, hooks := e.hooks + applied.1 + unload)
  }

  /** A player whose wire fields are those of the snapshot. */
  predicate FromSnapshot(p: Player, simple: SimplePlayer) {
    && p.playerName == simple.playerName
    && Utils.CreateVectorJSON(p.collider.end) == simple.position
    && Utils.CreateVectorJSON(p.velocity) == simple.velocity
    && Utils.CreateEulerJSON(p.orientation) == simple.orientation
    && Utils.CreateVectorJSON(p.direction) == simple.direction
  }

  /** The ids of the players loaded by a run of hooks. */
  function LoadsOf(hooks: seq<Engine.Hook>): set<string>
    decreases |hooks|
  {
    if |hooks| == 0 then {}
    else (if hooks[0].LoadModel? then {hooks[0].playerID} else {}) + LoadsOf(hooks[1..])
  }

  /** The hooks with the model loads taken out. */
  function WithoutLoads(hooks: seq<Engine.Hook>): seq<Engine.Hook>
    decreases |hooks|
  {
    if |hooks| == 0 then []
    else (if hooks[0].LoadModel? then [] else [hooks[0]]) + WithoutLoads(hooks[1..])
  }

  /** The reference order of replayed shots: every entry but our own, in
      order, each with its shots in order. */
  function SplatsOf(self: string, state: State): seq<Engine.Hook>
    decreases |state|
  {
    if |state| == 0 then []
    else (if state[0].0 == self then [] else Replay(state[0].1.shots)) + SplatsOf(self, state[1..])
  }

  /** Every player with a model: true of every player `updateState` creates. */
  predicate AllHaveModels(players: map<string, Player>) {
    forall id :: id in players ==> players[id].model.Some?
  }

  lemma {:induction false} HooksAppend(a: seq<Engine.Hook>, b: seq<Engine.Hook>)
    ensures LoadsOf(a + b) == LoadsOf(a) + LoadsOf(b)
    ensures WithoutLoads(a + b) == WithoutLoads(a) + WithoutLoads(b)
    decreases |a|
  {
    if |a| == 0 {
      assert a + b == b;
    } else {
      var ab := a + b;
      assert ab[0] == a[0];
      assert ab[1..] == a[1..] + b;
      HooksAppend(a[1..], b);
      var loaded: set<string> := if a[0].LoadModel? then {a[0].playerID} else {};
      var kept: seq<Engine.Hook> := if a[0].LoadModel? then [] else [a[0]];
      assert LoadsOf(ab) == loaded + LoadsOf(a[1..] + b);
      assert LoadsOf(a) == loaded + LoadsOf(a[1..]);
      assert WithoutLoads(ab) == kept + WithoutLoads(a[1..] + b);
      assert WithoutLoads(a) == kept + WithoutLoads(a[1..]);
    }
  }

  lemma {:induction false} ReplayHasNoLoads(shots: seq<Shot>)
    ensures WithoutLoads(Replay(shots)) == Replay(shots)
    ensures LoadsOf(Replay(shots)) == {}
    decreases |shots|
  {
    if |shots| > 0 {
      assert Replay(shots)[1..] == Replay(shots[1..]);
      ReplayHasNoLoads(shots[1..]);
    }
  }

  /** The head entry's id does not occur again in a snapshot with distinct keys. */
  lemma IdsOfTail(state: State)
    requires |state| > 0 && DistinctKeys(state)
    ensures DistinctKeys(state[1..])
    ensures Ids(state) == {state[0].0} + Ids(state[1..])
    ensures state[0].0 !in Ids(state[1..])
  {
    var rest := state[1..];
    forall id | id in Ids(state) ensures id in {state[0].0} + Ids(rest) {
      var j :| 0 <= j < |state| && state[j].0 == id;
      if j > 0 {
        assert rest[j - 1].0 == id;
      }
    }
  }

  /** The player an entry leaves in the roster, and the hooks it fires. */
  function EntryPlayer(players: map<string, Player>, id: string, simple: SimplePlayer): Player {
    SetPlayer(if id !in players then NewPlayer(id, simple.playerName, Some(RemoteModelPath)) else players[id], simple).0
  }

  lemma ApplyEntriesStep(players: map<string, Player>, self: string, state: State)
    requires |state| > 0 && state[0].0 != self
    ensures var (id, simple) := state[0];
      var created := id !in players;
      var p := EntryPlayer(players, id, simple);
      var hooks := (if created then [Engine.LoadModel(id)] else []) + Replay(simple.shots);
      var rest := ApplyEntries(players[id := p], self, state[1..]);
      ApplyEntries(players, self, state) == (rest.0, hooks + rest.1)
  {
  }

  /** The entry loop's roster: the old players plus the snapshot's (not ours);
      players the snapshot does not mention are untouched; new ones have models. */
  lemma {:induction false} ApplyEntriesKeys(players: map<string, Player>, self: string, state: State)
    ensures var r := ApplyEntries(players, self, state).0;
      && r.Keys == players.Keys + (Ids(state) - {self})
      && (forall id :: id in players && id !in Ids(state) - {self} ==> r[id] == players[id])
      && (forall id :: id in players ==> r[id].model == players[id].model)
      && (forall id :: id in r && id !in players ==> r[id].model.Some?)
    decreases |state|
  {
    if |state| > 0 {
      var (id, simple) := state[0];
      var rest := state[1..];
      assert Ids(state) == {id} + Ids(rest) by {
        forall x | x in Ids(state) ensures x in {id} + Ids(rest) {
          var j :| 0 <= j < |state| && state[j].0 == x;
          if j > 0 { assert rest[j - 1].0 == x; }
        }
      }
      if id == self {
        ApplyEntriesKeys(players, self, rest);
      } else {
        ApplyEntriesStep(players, self, state);
        assert EntryPlayer(players, id, simple).model.Some? || id in players;
        ApplyEntriesKeys(players[id := EntryPlayer(players, id, simple)], self, rest);
      }
    }
  }

  /** Every entry but our own ends with its snapshot fields. */
  lemma {:induction false} ApplyEntriesFields(players: map<string, Player>, self: string, state: State)
    requires DistinctKeys(state)
    ensures var r := ApplyEntries(players, self, state).0;
      forall i :: 0 <= i < |state| && state[i].0 != self ==> state[i].0 in r && FromSnapshot(r[state[i].0], state[i].1)
    decreases |state|
  {
    if |state| > 0 {
      var (id, simple) := state[0];
      var rest := state[1..];
      IdsOfTail(state);
      var r := ApplyEntries(players, self, state).0;
      if id == self {
        ApplyEntriesFields(players, self, rest);
        forall i | 0 <= i < |state| && state[i].0 != self
          ensures state[i].0 in r && FromSnapshot(r[state[i].0], state[i].1)
        {
          assert state[i] == rest[i - 1];
        }
      } else {
        var players1 := players[id := EntryPlayer(players, id, simple)];
        ApplyEntriesStep(players, self, state);
        ApplyEntriesFields(players1, self, rest);
        ApplyEntriesKeys(players1, self, rest);
        assert r[id] == players1[id];
        forall i | 0 <= i < |state| && state[i].0 != self
          ensures state[i].0 in r && FromSnapshot(r[state[i].0], state[i].1)
        {
          if i > 0 {
            assert state[i] == rest[i - 1];
          }
        }
      }
    }
  }

  /** The entry loop loads exactly the ids that are new. */
  lemma {:induction false} ApplyEntriesLoads(players: map<string, Player>, self: string, state: State)
    requires DistinctKeys(state)
    ensures LoadsOf(ApplyEntries(players, self, state).1) == Ids(state) - {self} - players.Keys
    decreases |state|
  {
    if |state| > 0 {
      var (id, simple) := state[0];
      var rest := state[1..];
      IdsOfTail(state);
      if id == self {
        ApplyEntriesLoads(players, self, rest);
      } else {
        var players1 := players[id := EntryPlayer(players, id, simple)];
        ApplyEntriesStep(players, self, state);
        ApplyEntriesLoads(players1, self, rest);
        var loaded: seq<Engine.Hook> := if id !in players then [Engine.LoadModel(id)] else [];
        var rr := ApplyEntries(players1, self, rest).1;
        ReplayHasNoLoads(simple.shots);
        HooksAppend(loaded, Replay(simple.shots));
        HooksAppend(loaded + Replay(simple.shots), rr);
        assert LoadsOf(loaded) == (if id !in players then {id} else {}) by {
          if id !in players {
            assert LoadsOf(loaded) == {id} + LoadsOf(loaded[1..]);
          }
        }
      }
    }
  }

  /** Apart from the loads, the entry loop replays the snapshot's shots in order. */
  lemma {:induction false} ApplyEntriesSplats(players: map<string, Player>, self: string, state: State)
    ensures WithoutLoads(ApplyEntries(players, self, state).1) == SplatsOf(self, state)
    decreases |state|
  {
    if |state| > 0 {
      var (id, simple) := state[0];
      var rest := state[1..];
      if id == self {
        ApplyEntriesSplats(players, self, rest);
      } else {
        var players1 := players[id := EntryPlayer(players, id, simple)];
        ApplyEntriesStep(players, self, state);
        ApplyEntriesSplats(players1, self, rest);
        var loaded: seq<Engine.Hook> := if id !in players then [Engine.LoadModel(id)] else [];
        var rr := ApplyEntries(players1, self, rest).1;
        ReplayHasNoLoads(simple.shots);
        HooksAppend(loaded, Replay(simple.shots));
        HooksAppend(loaded + Replay(simple.shots), rr);
        assert WithoutLoads(loaded) == [] by {
          if id !in players {
            assert WithoutLoads(loaded) == [] + WithoutLoads(loaded[1..]);
          }
        }
      }
    }
  }

  /** The second loop unloads exactly the players the snapshot no longer lists. */
  lemma DepartedAreStale(players: map<string, Player>, self: string, state: State)
    requires self !in players && AllHaveModels(players)
    ensures Departed(ApplyEntries(players, self, state).0, Ids(state)) == players.Keys - Ids(state)
  {
    ApplyEntriesKeys(players, self, state);
    var applied := ApplyEntries(players, self, state).0;
    forall id | id in players.Keys - Ids(state)
      ensures id in applied && id !in Ids(state) && applied[id].model.Some?
    {
      assert applied[id] == players[id];
    }
  }

  /** `updateState` makes the roster exactly the snapshot's players other than
      ourselves, each carrying its snapshot fields. It is stated for every
      roster `updateState` builds: our own id absent, every player with a model. */
  lemma UpdateStateRoster(e: Engine.Engine, state: State)
    requires e.hasScene && DistinctKeys(state)
    requires e.player.playerID !in e.players && AllHaveModels(e.players)
    ensures var r := UpdateState(e, state); var self := e.player.playerID;
      && r.players.Keys == Ids(state) - {self}
      && (forall i :: 0 <= i < |state| && state[i].0 != self ==> FromSnapshot(r.players[state[i].0], state[i].1))
      && self !in r.players && AllHaveModels(r.players)
  {
    var self := e.player.playerID;
    DepartedAreStale(e.players, self, state);
    var applied := ApplyEntries(e.players, self, state).0;
    var r := UpdateState(e, state);
    assert r.players == applied - (e.players.Keys - Ids(state));
    ApplyEntriesKeys(e.players, self, state);
    assert r.players.Keys == Ids(state) - {self};
    forall id | id in r.players ensures r.players[id].model.Some? {
      assert r.players[id] == applied[id];
    }
    ApplyEntriesFields(e.players, self, state);
    forall i | 0 <= i < |state| && state[i].0 != self
      ensures FromSnapshot(r.players[state[i].0], state[i].1)
    {
      assert r.players[state[i].0] == applied[state[i].0];
    }
  }

  /** The hooks `updateState` appends: the entry loop's, then at most one unload. */
  lemma UpdateStateAppends(e: Engine.Engine, state: State)
    requires e.hasScene
    ensures var applied := ApplyEntries(e.players, e.player.playerID, state);
      var gone := Departed(applied.0, Ids(state));
      var r := UpdateState(e, state);
      && |r.hooks| >= |e.hooks| && r.hooks[..|e.hooks|] == e.hooks
      && r.hooks[|e.hooks|..] == applied.1 + (if gone == {} then [] else [Engine.UnloadModels(gone)])
  {
    var applied := ApplyEntries(e.players, e.player.playerID, state);
    var gone := Departed(applied.0, Ids(state));
    var unload: seq<Engine.Hook> := if gone == {} then [] else [Engine.UnloadModels(gone)];
    var r := UpdateState(e, state);
    assert r.hooks == e.hooks + (applied.1 + unload);
  }

  lemma UpdateStateHooks(e: Engine.Engine, state: State)
    requires e.hasScene && DistinctKeys(state)
    requires e.player.playerID !in e.players && AllHaveModels(e.players)
    ensures var r := UpdateState(e, state); var self := e.player.playerID;
      && |r.hooks| >= |e.hooks| && r.hooks[..|e.hooks|] == e.hooks
      && LoadsOf(r.hooks[|e.hooks|..]) == Ids(state) - {self} - e.players.Keys
      && (e.players.Keys - Ids(state) == {} ==> WithoutLoads(r.hooks[|e.hooks|..]) == SplatsOf(self, state))
      && (e.players.Keys - Ids(state) != {} ==>
            WithoutLoads(r.hooks[|e.hooks|..]) == SplatsOf(self, state) + [Engine.UnloadModels(e.players.Keys - Ids(state))])
  {
    var self := e.player.playerID;
    var gone := e.players.Keys - Ids(state);
    DepartedAreStale(e.players, self, state);
    UpdateStateAppends(e, state);
    var applied := ApplyEntries(e.players, self, state).1;
    ApplyEntriesLoads(e.players, self, state);
    ApplyEntriesSplats(e.players, self, state);
    var unload: seq<Engine.Hook> := if gone == {} then [] else [Engine.UnloadModels(gone)];
    HooksAppend(applied, unload);
    if gone != {} {
      assert WithoutLoads(unload) == [unload[0]] + WithoutLoads([]);
      assert LoadsOf(unload) == {} + LoadsOf([]);
    }
  }

  /** Our own id is never added to the roster nor changed in it. */
  lemma UpdateStateLeavesSelfAlone(e: Engine.Engine, state: State)
    requires DistinctKeys(state)
    ensures var r := UpdateState(e, state); var self := e.player.playerID;
      self in r.players ==> self in e.players && r.players[self] == e.players[self]
  {
    if e.hasScene {
      ApplyEntriesKeys(e.players, e.player.playerID, state);
    }
  }

  /** Applying the same snapshot twice creates and removes nothing the second
      time, yet replays the snapshot's shots again. */
  lemma UpdateStateTwice(e: Engine.Engine, state: State)
    requires e.hasScene && DistinctKeys(state)
    requires e.player.playerID !in e.players && AllHaveModels(e.players)
    ensures var once := UpdateState(e, state); var twice := UpdateState(once, state);
      && twice.players.Keys == once.players.Keys
      && twice.hooks[..|once.hooks|] == once.hooks
      && LoadsOf(twice.hooks[|once.hooks|..]) == {}
      && WithoutLoads(twice.hooks[|once.hooks|..]) == SplatsOf(e.player.playerID, state)
  {
    UpdateStateRoster(e, state);
    UpdateStateHooks(e, state);
    var once := UpdateState(e, state);
    UpdateStateRoster(once, state);
    UpdateStateHooks(once, state);
  }

  /** A player that joins and is then missing from the next snapshot is
      unloaded exactly once and leaves nothing behind. */
  lemma JoinThenLeave(e: Engine.Engine, simple: SimplePlayer)
    requires e.hasScene && e.players == map[] && e.player.playerID != "p1"
    ensures var joined := UpdateState(e, [("p1", simple)]);
      var left := UpdateState(joined, []);
      && "p1" in joined.players
      && left.players == map[]
      && left.hooks == joined.hooks + [Engine.UnloadModels({"p1"})]
  {
    var state: State := [("p1", simple)];
    UpdateStateRoster(e, state);
    var joined := UpdateState(e, state);
    assert Ids(state) == {"p1"};
    assert joined.players.Keys == {"p1"};
    UpdateStateRoster(joined, []);
    assert Departed(joined.players, Ids([])) == {"p1"};
  }
}

=== FILE: player.dfy ===
/** A player body (src/game/Player.ts): a capsule collider, a velocity, the
    look direction and orientation, and an optional animated model. */
module Player {
  import opened Wrappers
  import opened Vectors
  import AnimatedModel

  /** `three/examples/jsm/math/Capsule`: two end points and a radius. */
  datatype Capsule = Capsule(start: Vec3, end: Vec3, radius: real)

  datatype Player = Player(
    playerID: string,
    playerName: string,
    collider: Capsule,
    position: Vec3,
    velocity: Vec3,
    direction: Vec3,
    orientation: Euler,
    onFloor: bool,
    model: Option<AnimatedModel.Model>,
    isLead: bool)

  /** The standing height: the y of the capsule's upper end above the feet. */
  const Height: real := 1.66
  const Radius: real := 0.35
  /** The spawn point of the capsule's lower end. */
  const SpawnStart: Vec3 := Vec3(-5.0, 0.35, 5.0)

  /** The capsule shape every player keeps: upright, `Height - Radius` long, radius 0.35. */
  predicate StandardShape(c: Capsule) {
    Sub(c.end, c.start) == Vec3(0.0, Height - Radius, 0.0) && c.radius == Radius
  }

  /** Two capsules of the same shape: one is a translation of the other. */
  predicate SameShape(a: Capsule, b: Capsule) {
    Sub(a.end, a.start) == Sub(b.end, b.start) && a.radius == b.radius
  }

  /** `collider.translate(d)`: both ends move by `d`. */
  function Translate(c: Capsule, d: Vec3): (r: Capsule)
    ensures SameShape(r, c)
    ensures Sub(r.start, c.start) == d && Sub(r.end, c.end) == d
  {
    Capsule(Add(c.start, d), Add(c.end, d), c.radius)
  }

  /** `initializeCollider()`: the spawn pose, whatever the capsule was before. */
  function InitializeCollider(c: Capsule): (r: Capsule)
    ensures StandardShape(r)
    ensures r.start == SpawnStart && r.end == Vec3(-5.0, Height, 5.0)
  {
    Capsule(SpawnStart, Vec3(-5.0, Height, 5.0), Radius)
  }

  /** `new Capsule()` before `initializeCollider` runs. */
  const DefaultCapsule: Capsule := Capsule(Zero, Vec3(0.0, 1.0, 0.0), 1.0)

  /** `new Player(playerID, playerName, modelPath)`. A model is created only for
      a truthy path, so the empty string gives none. */
  function NewPlayer(playerID: string, playerName: string, modelPath: Option<string>): (p: Player)
    ensures p.playerID == playerID && p.playerName == playerName
    ensures p.velocity == Zero && p.position == Zero && p.direction == Zero
    ensures !p.onFloor && !p.isLead
    ensures StandardShape(p.collider) && p.collider.start == SpawnStart
    ensures p.model.Some? <==> modelPath.Some? && modelPath.value != ""
    ensures p.model.Some? ==> p.model.value.meshPath == modelPath.value && p.model.value.actions.None?
  {
    Player(playerID, playerName, InitializeCollider(DefaultCapsule), Zero, Zero, Zero,
      Euler(0.0, 0.0, 0.0, "XYZ"), false,
      if modelPath.Some? && modelPath.value != "" then Some(AnimatedModel.NewModel(modelPath.value)) else None,
      false)
  }

  /** `translateColliderToPosition()`: the feet are `Height` below the capsule's upper end. */
  function TranslateColliderToPosition(p: Player): (r: Player)
    ensures Add(r.position, Vec3(0.0, Height, 0.0)) == p.collider.end
    ensures r == p.(position := r.position)
  {
    p.(position := Vec3(p.collider.end.x, p.collider.end.y - Height, p.collider.end.z))
  }

  /** `speed`: the length of the velocity. */
  function Speed(p: Player, math: MathLib): real {
    math.sqrt(Dot(p.velocity, p.velocity))
  }

  /** The velocity after gravity and damping, before it is integrated. `decay`
      is `Math.exp(-4 * deltaTime)`. */
  function Damped(v: Vec3, onFloor: bool, dt: real, gravity: real, decay: real): (r: Vec3)
    ensures onFloor ==> r == Scale(v, decay)
    ensures !onFloor ==> r == Scale(Vec3(v.x, v.y - gravity * dt, v.z), 1.0 + 0.1 * (decay - 1.0))
  {
    var damping := decay - 1.0;
    var fallen := if onFloor then v else v.(y := v.y - gravity * dt);
    var damping' := if onFloor then damping else damping * 0.1;
    ScaleBySum(fallen, damping');
    AddScaled(fallen, fallen, damping')
  }

  /** Adding `k` times a vector to itself scales it by `1 + k`. */
  lemma ScaleBySum(v: Vec3, k: real)
    ensures AddScaled(v, v, k) == Scale(v, 1.0 + k)
  {
    MulDistributes(v.x, 1.0, k);
    MulDistributes(v.y, 1.0, k);
    MulDistributes(v.z, 1.0, k);
    assert AddScaled(v, v, k) == Vec3(v.x + v.x * k, v.y + v.y * k, v.z + v.z * k);
    assert Scale(v, 1.0 + k) == Vec3(v.x * (1.0 + k), v.y * (1.0 + k), v.z * (1.0 + k));
  }

  /** `updatePlayer(deltaTime, GRAVITY)`: damp (and, in the air, pull down) the
      velocity, then move the capsule by `velocity * deltaTime`. A player with a
      model also gets its feet position and animation blend refreshed. */
  function UpdatePlayer(p: Player, dt: real, gravity: real, math: MathLib): (r: Player)
    ensures r.velocity == Damped(p.velocity, p.onFloor, dt, gravity, math.exp(-4.0 * dt))
    ensures SameShape(r.collider, p.collider)
    ensures Sub(r.collider.end, p.collider.end) == Scale(r.velocity, dt)
    ensures r.playerID == p.playerID && r.playerName == p.playerName && r.onFloor == p.onFloor
    ensures r.direction == p.direction && r.orientation == p.orientation && r.isLead == p.isLead
    ensures r.model.Some? <==> p.model.Some?
    ensures p.model.None? ==> r.position == p.position
    ensures p.model.Some? ==> Add(r.position, Vec3(0.0, Height, 0.0)) == r.collider.end
  {
    var v := Damped(p.velocity, p.onFloor, dt, gravity, math.exp(-4.0 * dt));
    var moved := p.(velocity := v, collider := Translate(p.collider, Scale(v, dt)));
    match moved.model
    case None => moved
    case Some(m) =>
      var placed := TranslateColliderToPosition(moved);
      placed.(model := Some(AnimatedModel.UpdateAction(m, Speed(placed, math))))
  }

  /** On the floor no gravity is applied and the full damping acts; in the air
      gravity pulls the velocity down first and only a tenth of the damping acts. */
  lemma UpdatePlayerFloorVersusAir(p: Player, dt: real, gravity: real, math: MathLib)
    ensures var e := math.exp(-4.0 * dt);
      p.onFloor ==> UpdatePlayer(p, dt, gravity, math).velocity.y == p.velocity.y * e
    ensures var e := math.exp(-4.0 * dt);
      !p.onFloor ==>
        UpdatePlayer(p, dt, gravity, math).velocity.y == (p.velocity.y - gravity * dt) * (1.0 + 0.1 * (e - 1.0))
  {
  }
}

=== FILE: types.dfy ===
/** The plain records exchanged over the wire (src/Types.ts). */
module Types {

  /** `{x, y, z}`: the JSON form of a vector or of Euler angles. */
  datatype SimpleVector = SimpleVector(x: real, y: real, z: real)

  /** One shot: where it was fired from, where it points, and its paint colour. */
  datatype Shot = Shot(origin: SimpleVector, direction: SimpleVector, color: real)

  /** The snapshot of one player, as sent in `{player: ...}` and received in `{state: ...}`. */
  datatype SimplePlayer = SimplePlayer(
    playerID: string,
    playerName: string,
    position: SimpleVector,
    velocity: SimpleVector,
    orientation: SimpleVector,
    direction: SimpleVector,
    shots: seq<Shot>)

  /** A roster message `{[playerID]: SimplePlayer}`, as the sequence of its
      entries in `Object.entries` order. */
  type State = seq<(string, SimplePlayer)>

  /** An object's keys are unique. */
  predicate DistinctKeys(state: State) {
    forall i, j :: 0 <= i < j < |state| ==> state[i].0 != state[j].0
  }

  /** The set of ids a roster message mentions. */
  function Ids(state: State): (ids: set<string>)
    ensures forall i :: 0 <= i < |state| ==> state[i].0 in ids
    ensures forall id :: id in ids ==> exists i :: 0 <= i < |state| && state[i].0 == id
  {
    set i | 0 <= i < |state| :: state[i].0
  }
}

=== FILE: utils.dfy ===
/** The helpers of src/Utils.ts that the core uses: time offsets, vector/JSON
    conversion and string-enum lookup. */
module Utils {
  import opened Vectors
  import opened Types

  /** A `Date`, reduced to its time value in whole milliseconds. */
  datatype Date = Date(time: int)

  /** `offsetTime(date, offset)`: the date `offset` milliseconds later. */
  function OffsetTime(d: Date, offset: int): (r: Date)
    ensures r.time - d.time == offset
  {
    Date(d.time + offset)
  }

  /** Offsetting twice is offsetting once by the sum, and an offset is undone by its negation. */
  lemma OffsetTimeComposes(d: Date, a: int, b: int)
    ensures OffsetTime(OffsetTime(d, a), b) == OffsetTime(d, a + b)
    ensures OffsetTime(OffsetTime(d, a), -a) == d
    ensures OffsetTime(d, 0) == d
  {
  }

  /** `createVectorJSON(v)` for a `THREE.Vector3`: the three components, copied exactly. */
  function CreateVectorJSON(v: Vec3): (s: SimpleVector)
    ensures s.x == v.x && s.y == v.y && s.z == v.z
  {
    SimpleVector(v.x, v.y, v.z)
  }

  /** `createVectorJSON(e)` for a `THREE.Euler`: the same conversion applied to
      the three angles; the rotation order is dropped. */
  function CreateEulerJSON(e: Euler): (s: SimpleVector)
    ensures s.x == e.x && s.y == e.y && s.z == e.z
  {
    CreateVectorJSON(Vec3(e.x, e.y, e.z))
  }

  /** `setVector(v, s)` on a `THREE.Vector3`: every component is overwritten,
      so converting the result back gives exactly `s`. */
  function SetVector(v: Vec3, s: SimpleVector): (r: Vec3)
    ensures CreateVectorJSON(r) == s
  {
    Vec3(s.x, s.y, s.z)
  }

  /** `setVector(e, s)` on a `THREE.Euler`: the angles become `s` and the
      rotation order is kept. */
  function SetEuler(e: Euler, s: SimpleVector): (r: Euler)
    ensures CreateEulerJSON(r) == s
    ensures r.order == e.order
  {
    Euler(s.x, s.y, s.z, e.order)
  }

  /** The JSON form determines a vector completely: writing it into any vector
      gives the original back, and an Euler keeps its own rotation order. */
  lemma VectorJSONRoundTrip(v: Vec3, w: Vec3, e: Euler)
    ensures SetVector(w, CreateVectorJSON(v)) == v
    ensures SetEuler(e, CreateEulerJSON(e)) == e
  {
  }

  /** A TypeScript string enum, as the list of its `key = 'value'` members. */
  type Enum = seq<(string, string)>

  /** `enum WorldName { Space = 'Space' }` (src/world/WorldLoader.tsx). */
  const WorldName: Enum := [("Space", "Space")]

  /** `getEnumKeys(E)`: the member names, in declaration order. */
  function GetEnumKeys(e: Enum): (keys: seq<string>)
    ensures |keys| == |e|
    ensures forall i :: 0 <= i < |e| ==> keys[i] == e[i].0
  {
    if |e| == 0 then [] else [e[0].0] + GetEnumKeys(e[1..])
  }

  /** `checkEnum(E, value)`: whether `value` is one of the member values. */
  function CheckEnum(e: Enum, value: string): (found: bool)
    ensures found <==> exists i :: 0 <= i < |e| && e[i].1 == value
  {
    if |e| == 0 then false
    else if e[0].1 == value then true
    else
      var rest := CheckEnum(e[1..], value);
      assert forall i :: 1 <= i < |e| ==> e[i] == e[1..][i - 1];
      rest
  }

  /** Exactly one world name is accepted by `checkEnum(WorldName, ...)`. */
  lemma WorldNameAcceptsOnlySpace(value: string)
    ensures CheckEnum(WorldName, value) <==> value == "Space"
  {
  }
}

=== FILE: vectors.dfy ===
/** Three-component vectors and Euler angles over the reals: the parts of
    `THREE.Vector3` and `THREE.Euler` that the movement and collision code uses. */
module Vectors {

  datatype Vec3 = Vec3(x: real, y: real, z: real)

  /** `THREE.Euler`: three angles plus a rotation order that `set` leaves alone. */
  datatype Euler = Euler(x: real, y: real, z: real, order: string)

  const Zero: Vec3 := Vec3(0.0, 0.0, 0.0)

  /** The floating-point library calls the code makes, as opaque real functions:
      `Math.exp`, `Math.sqrt` and `Vector3.normalize`. */
  datatype MathLib = MathLib(exp: real -> real, sqrt: real -> real, normalize: Vec3 -> Vec3)

  function Add(a: Vec3, b: Vec3): Vec3 {
    Vec3(a.x + b.x, a.y + b.y, a.z + b.z)
  }

  function Sub(a: Vec3, b: Vec3): Vec3 {
    Vec3(a.x - b.x, a.y - b.y, a.z - b.z)
  }

  function Scale(a: Vec3, k: real): Vec3 {
    Vec3(a.x * k, a.y * k, a.z * k)
  }

  function Dot(a: Vec3, b: Vec3): real {
    a.x * b.x + a.y * b.y + a.z * b.z
  }

  /** `a.distanceToSquared(b)` */
  function DistanceSquared(a: Vec3, b: Vec3): real {
    Dot(Sub(a, b), Sub(a, b))
  }

  /** `a.addScaledVector(b, k)` */
  function AddScaled(a: Vec3, b: Vec3, k: real): Vec3 {
    Add(a, Scale(b, k))
  }

  function Cross(a: Vec3, b: Vec3): Vec3 {
    Vec3(a.y * b.z - a.z * b.y, a.z * b.x - a.x * b.z, a.x * b.y - a.y * b.x)
  }

  predicate IsUnit(n: Vec3) {
    Dot(n, n) == 1.0
  }

  /** Real-number identities, one product at a time. */
  lemma MulDistributes(a: real, b: real, c: real)
    ensures a * (b + c) == a * b + a * c
    ensures (b + c) * a == b * a + c * a
    ensures a * (b - c) == a * b - a * c
    ensures (b - c) * a == b * a - c * a
  {
  }

  lemma MulAssociates(a: real, b: real, c: real)
    ensures (a * b) * c == a * (b * c)
    ensures (a * b) * c == b * (a * c)
  {
  }

  lemma DotSymmetric(a: Vec3, b: Vec3)
    ensures Dot(a, b) == Dot(b, a)
  {
  }

  lemma DotAdd(a: Vec3, b: Vec3, u: Vec3)
    ensures Dot(Add(a, b), u) == Dot(a, u) + Dot(b, u)
  {
    MulDistributes(u.x, a.x, b.x);
    MulDistributes(u.y, a.y, b.y);
    MulDistributes(u.z, a.z, b.z);
  }

  lemma DotSub(a: Vec3, b: Vec3, u: Vec3)
    ensures Dot(Sub(a, b), u) == Dot(a, u) - Dot(b, u)
  {
    MulDistributes(u.x, a.x, b.x);
    MulDistributes(u.y, a.y, b.y);
    MulDistributes(u.z, a.z, b.z);
  }

  lemma DotScale(n: Vec3, k: real, u: Vec3)
    ensures Dot(Scale(n, k), u) == k * Dot(n, u)
  {
    MulAssociates(n.x, k, u.x);
    MulAssociates(n.y, k, u.y);
    MulAssociates(n.z, k, u.z);
    MulDistributes(k, n.x * u.x, n.y * u.y);
    MulDistributes(k, n.x * u.x + n.y * u.y, n.z * u.z);
  }

  /** The component of `v` along `n` is removed by `AddScaled(v, n, -Dot(n, v))`
      when `n` has unit length: the sliding response leaves no normal velocity. */
  lemma RemoveNormalComponent(v: Vec3, n: Vec3)
    requires IsUnit(n)
    ensures Dot(AddScaled(v, n, -Dot(n, v)), n) == 0.0
  {
    var k := -Dot(n, v);
    DotAdd(v, Scale(n, k), n);
    DotScale(n, k, n);
    DotSymmetric(n, v);
  }
}

=== FILE: world.dfy ===
/** The rock registry of the space world (src/world/World.ts): rocks added
    from server data, looked up by id and by the uuid of their mesh, picked by
    a ray and destroyed with an explosion. The React setters the world calls are
    optional; each call to one is recorded, in order, as an `Effect`. */
module World {
  import opened Wrappers
  import opened Vectors

  /** The mesh a rock is drawn with: its numeric object id and its uuid. */
  datatype Mesh = Mesh(id: int, uuid: string)

  /** A rock: its id, its place in space, and its mesh once one is attached. */
  datatype Rock = Rock(guid: string, position: Vec3, mesh: Option<Mesh>)

  /** An explosion shown where a rock was destroyed. */
  datatype Explosion = Explosion(guid: int, position: Vec3, scale: real, time: int)

  /** One call of a React setter the world holds. */
  datatype Effect =
    | RocksSet(rocks: seq<Rock>)
    | CurrentRockSet(rock: Option<Rock>)
    | ExplosionsSet(explosions: seq<Explosion>)

  /** The registry fields of a `World`, and which setters are wired. */
  datatype Registry = Registry(
    idToRock: map<string, Rock>,
    meshIdToRockId: map<string, string>,
    rocks: seq<Rock>,
    explosions: seq<Explosion>,
    firstRock: Option<Rock>,
    rockCount: nat,
    hasSetRocks: bool,
    hasSetCurrentRock: bool,
    hasSetExplosions: bool,
    effects: seq<Effect>)

  /** The first rock sits this far down the z axis, and each later one ... */
  const FirstRockZ: real := 25.0
  /** ... this much further. */
  const RockSpacing: real := 10.0
  /** x and y are drawn from `[-Scatter, Scatter)`. */
  const Scatter: real := 20.0

  /** A fresh `World`: nothing registered, no rock counted yet. */
  function NewRegistry(hasSetRocks: bool, hasSetCurrentRock: bool, hasSetExplosions: bool): (w: Registry)
    ensures w.idToRock == map[] && w.meshIdToRockId == map[] && w.rocks == [] && w.explosions == []
    ensures w.firstRock.None? && w.rockCount == 0 && w.effects == []
    ensures WellFormed(w)
  {
    Registry(map[], map[], [], [], None, 0, hasSetRocks, hasSetCurrentRock, hasSetExplosions, [])
  }

  /** What every operation keeps: a rock is filed under its own id, and a first
      rock is known exactly once a rock has been counted. */
  predicate WellFormed(w: Registry) {
    && (forall id :: id in w.idToRock ==> w.idToRock[id].guid == id)
    && (w.firstRock.Some? <==> w.rockCount > 0)
  }

  /** Record a setter call, if that setter is wired. */
  function Notify(w: Registry, wired: bool, effect: Effect): (r: Registry)
    ensures wired ==> r.effects == w.effects + [effect]
    ensures !wired ==> r == w
    ensures r == w.(effects := r.effects)
  {
    if wired then w.(effects := w.effects + [effect]) else w
  }

  /** `(-1 + random * 2) * 20`: one scattered coordinate. */
  function ScatterCoordinate(random: real): (c: real)
    ensures 0.0 <= random < 1.0 ==> -Scatter <= c < Scatter
    ensures c == Scatter * (2.0 * random - 1.0)
  {
    (-1.0 + random * 2.0) * 20.0
  }

  /** `addRock(rockData)`: place a new rock with the data's id further down the
      z axis than every earlier one, at a random x and y; file it by id; hand the
      setter the list with the rock appended; count it. `randomX` and `randomY`
      are the two `Math.random()` draws. */
  function AddRock(w: Registry, id: string, randomX: real, randomY: real): (r: Registry)
    ensures r.rockCount == w.rockCount + 1
    ensures id in r.idToRock
    ensures var rock := r.idToRock[id];
      && rock.guid == id && rock.mesh.None?
      && rock.position.z == FirstRockZ + RockSpacing * w.rockCount as real
      && (0.0 <= randomX < 1.0 ==> -Scatter <= rock.position.x < Scatter)
      && (0.0 <= randomY < 1.0 ==> -Scatter <= rock.position.y < Scatter)
      && (w.hasSetRocks ==> r.effects == w.effects + [RocksSet(w.rocks + [rock])])
      && (w.firstRock.None? ==> r.firstRock == Some(rock))
    ensures forall other :: other != id ==>
      (other in r.idToRock <==> other in w.idToRock) && (other in w.idToRock ==> r.idToRock[other] == w.idToRock[other])
    ensures w.firstRock.Some? ==> r.firstRock == w.firstRock
    ensures !w.hasSetRocks ==> r.effects == w.effects
    ensures r.meshIdToRockId == w.meshIdToRockId && r.rocks == w.rocks && r.explosions == w.explosions
    ensures WellFormed(w) ==> WellFormed(r)
  {
    var z := 25.0 + (w.rockCount as real) * 10.0;
    var rock := Rock(id, Vec3(ScatterCoordinate(randomX), ScatterCoordinate(randomY), z), None);
    var first := if w.firstRock.None? then Some(rock) else w.firstRock;
    var filed := w.(firstRock := first, idToRock := w.idToRock[rock.guid := rock]);
    var notified := Notify(filed, w.hasSetRocks, RocksSet(w.rocks + [rock]));
    notified.(rockCount := w.rockCount + 1)
  }

  /** Once set, the first rock stays the first rock whatever is added after it. */
  lemma FirstRockIsKept(w: Registry, id1: string, id2: string, x1: real, y1: real, x2: real, y2: real)
    requires w.firstRock.None?
    ensures var once := AddRock(w, id1, x1, y1);
      && once.firstRock == Some(once.idToRock[id1])
      && AddRock(once, id2, x2, y2).firstRock == once.firstRock
  {
  }

  /** Consecutive rocks are spaced evenly down the z axis. */
  lemma RocksAreSpaced(w: Registry, id1: string, id2: string, x1: real, y1: real, x2: real, y2: real)
    ensures var once := AddRock(w, id1, x1, y1);
      var twice := AddRock(once, id2, x2, y2);
      twice.idToRock[id2].position.z == once.idToRock[id1].position.z + RockSpacing
  {
  }

  /** Every copy of `rock` in a list replaced by `attached`: the list holds
      the same objects the registry does, so a change to one shows in all. */
  function Reattach(rocks: seq<Rock>, rock: Rock, attached: Rock): (r: seq<Rock>)
    ensures |r| == |rocks|
    ensures forall i :: 0 <= i < |rocks| ==> r[i] == if rocks[i] == rock then attached else rocks[i]
  {
    seq(|rocks|, i requires 0 <= i < |rocks| => if rocks[i] == rock then attached else rocks[i])
  }

  /** `Rock` in src/world/Rocks.tsx, once its mesh is mounted: the rock object
      gets the mesh, and the mesh's uuid is filed under the rock's id. The rock
      object is shared, so its copies in `rocks` and `firstRock` get the mesh
      too; a rock is identified with the registry's copy by value. */
  function AttachMesh(w: Registry, id: string, mesh: Mesh): (r: Registry)
    ensures r.meshIdToRockId == w.meshIdToRockId[mesh.uuid := id]
    ensures r.idToRock.Keys == w.idToRock.Keys
    ensures id in w.idToRock ==> var rock := w.idToRock[id];
      && r.idToRock[id] == rock.(mesh := Some(mesh))
      && |r.rocks| == |w.rocks|
      && (forall i :: 0 <= i < |w.rocks| && w.rocks[i] == rock ==> r.rocks[i] == r.idToRock[id])
      && (forall i :: 0 <= i < |w.rocks| && w.rocks[i] != rock ==> r.rocks[i] == w.rocks[i])
      && r.firstRock == (if w.firstRock == Some(rock) then Some(r.idToRock[id]) else w.firstRock)
    ensures id !in w.idToRock ==> r.rocks == w.rocks && r.firstRock == w.firstRock
    ensures forall other :: other in w.idToRock && other != id ==> r.idToRock[other] == w.idToRock[other]
    ensures r == w.(idToRock := r.idToRock, meshIdToRockId := r.meshIdToRockId, rocks := r.rocks, firstRock := r.firstRock)
    ensures WellFormed(w) ==> WellFormed(r)
  {
    var meshed := w.(meshIdToRockId := w.meshIdToRockId[mesh.uuid := id]);
    if id !in w.idToRock then meshed
    else
      var rock := w.idToRock[id];
      var attached := rock.(mesh := Some(mesh));
      meshed.(idToRock := w.idToRock[id := attached],
              rocks := Reattach(w.rocks, rock, attached),
              firstRock := if w.firstRock == Some(rock) then Some(attached) else w.firstRock)
  }

  /** `rocks.filter(r => r.guid !== guid)`. */
  function WithoutGuid(rocks: seq<Rock>, guid: string): (r: seq<Rock>)
    ensures forall i :: 0 <= i < |r| ==> r[i].guid != guid && r[i] in rocks
    ensures forall i :: 0 <= i < |rocks| && rocks[i].guid != guid ==> rocks[i] in r
    ensures |r| <= |rocks|
    decreases |rocks|
  {
    if |rocks| == 0 then []
    else
      var rest := WithoutGuid(rocks[1..], guid);
      assert forall i :: 1 <= i < |rocks| ==> rocks[i] == rocks[1..][i - 1];
      if rocks[0].guid == guid then rest else [rocks[0]] + rest
  }

  /** The filter keeps the order of what it keeps. */
  lemma {:induction false} WithoutGuidDistributes(a: seq<Rock>, b: seq<Rock>, guid: string)
    ensures WithoutGuid(a + b, guid) == WithoutGuid(a, guid) + WithoutGuid(b, guid)
    decreases |a|
  {
    if |a| == 0 {
      assert a + b == b;
    } else {
      assert (a + b)[0] == a[0];
      assert (a + b)[1..] == a[1..] + b;
      WithoutGuidDistributes(a[1..], b, guid);
    }
  }

  /** `destroyRock(rockId)`: for a known id, show an explosion where the rock
      was (if it has a mesh), hand the setter the list without it, forget the rock
      and its mesh, and clear the current rock. An unknown id changes nothing. */
  function DestroyRock(w: Registry, rockId: string, now: int): (r: Registry)
    ensures rockId !in w.idToRock ==> r == w
    ensures rockId in w.idToRock ==> var rock := w.idToRock[rockId];
      && r.idToRock == w.idToRock - {rock.guid}
      && (rock.mesh.Some? ==> r.meshIdToRockId == w.meshIdToRockId - {rock.mesh.value.uuid})
      && (rock.mesh.None? ==> r.meshIdToRockId == w.meshIdToRockId)
      && r.effects == w.effects
        + (if rock.mesh.Some? && w.hasSetExplosions
           then [ExplosionsSet(w.explosions + [Explosion(rock.mesh.value.id, rock.position, 1.0, now)])] else [])
        + (if w.hasSetRocks then [RocksSet(WithoutGuid(w.rocks, rock.guid))] else [])
        + (if w.hasSetCurrentRock then [CurrentRockSet(None)] else [])
    ensures r.rocks == w.rocks && r.explosions == w.explosions
    ensures r.rockCount == w.rockCount && r.firstRock == w.firstRock
    ensures WellFormed(w) ==> WellFormed(r) && rockId !in r.idToRock
  {
    if rockId !in w.idToRock then w
    else
      var rock := w.idToRock[rockId];
      var exploded :=
        if rock.mesh.Some?
        then Notify(w, w.hasSetExplosions, ExplosionsSet(w.explosions + [Explosion(rock.mesh.value.id, rock.position, 1.0, now)]))
        else w;
      var listed := Notify(exploded, w.hasSetRocks, RocksSet(WithoutGuid(w.rocks, rock.guid)));
      var forgotten := listed.(idToRock := w.idToRock - {rock.guid});
      var unmeshed :=
        if rock.mesh.Some? then forgotten.(meshIdToRockId := w.meshIdToRockId - {rock.mesh.value.uuid}) else forgotten;
      Notify(unmeshed, w.hasSetCurrentRock, CurrentRockSet(None))
  }

  /** Destroying a rock right after adding it restores the id registry, and the
      list handed to the setter is the list from before the rock was added. */
  lemma AddThenDestroy(w: Registry, id: string, randomX: real, randomY: real, now: int)
    requires WellFormed(w) && id !in w.idToRock
    requires forall i :: 0 <= i < |w.rocks| ==> w.rocks[i].guid != id
    ensures var added := AddRock(w, id, randomX, randomY);
      var gone := DestroyRock(added, id, now);
      && gone.idToRock == w.idToRock
      && gone.meshIdToRockId == w.meshIdToRockId
      && (w.hasSetRocks ==> RocksSet(w.rocks) in gone.effects)
  {
    var added := AddRock(w, id, randomX, randomY);
    var rock := added.idToRock[id];
    WithoutGuidDistributes(w.rocks, [rock], id);
    WithoutGuidKeepsUnrelated(w.rocks, id);
    assert WithoutGuid([rock], id) == [];
    if w.hasSetRocks {
      var gone := DestroyRock(added, id, now);
      assert gone.effects[|added.effects|] == RocksSet(w.rocks);
    }
  }

  /** The filter leaves a list alone when no rock in it has the guid. */
  lemma {:induction false} WithoutGuidKeepsUnrelated(rocks: seq<Rock>, guid: string)
    requires forall i :: 0 <= i < |rocks| ==> rocks[i].guid != guid
    ensures WithoutGuid(rocks, guid) == rocks
    decreases |rocks|
  {
    if |rocks| > 0 {
      WithoutGuidKeepsUnrelated(rocks[1..], guid);
    }
  }

  /** The rock a mesh uuid selects, if any: its id must be non-empty (a
      truthy string) and still filed. */
  function RockOfMesh(w: Registry, uuid: string): (r: Option<Rock>)
    ensures r.Some? <==> uuid in w.meshIdToRockId && w.meshIdToRockId[uuid] != "" && w.meshIdToRockId[uuid] in w.idToRock
    ensures r.Some? ==> r.value == w.idToRock[w.meshIdToRockId[uuid]]
  {
    if uuid in w.meshIdToRockId && w.meshIdToRockId[uuid] != "" && w.meshIdToRockId[uuid] in w.idToRock
    then Some(w.idToRock[w.meshIdToRockId[uuid]])
    else None
  }

  /** The setter calls of the traversal of a hit object, given the uuids of its
      meshes in traversal order: one call per mesh that selects a rock. */
  function Selections(w: Registry, meshes: seq<string>): (r: seq<Effect>)
    ensures forall i :: 0 <= i < |r| ==> r[i].CurrentRockSet? && r[i].rock.Some?
    decreases |meshes|
  {
    if |meshes| == 0 then []
    else
      var here := RockOfMesh(w, meshes[0]);
      (if here.Some? then [CurrentRockSet(here)] else []) + Selections(w, meshes[1..])
  }

  /** `shootRay(raycaster)`: clear the current rock, then, if the ray hit
      anything, traverse the first object hit and select each rock one of its
      meshes belongs to. `hit` is the uuids of that object's meshes, in
      traversal order, or `None` when the ray hit nothing. */
  function ShootRay(w: Registry, hit: Option<seq<string>>): (r: Registry)
    ensures !w.hasSetCurrentRock ==> r == w
    ensures w.hasSetCurrentRock ==>
      && |r.effects| > |w.effects|
      && r.effects[..|w.effects|] == w.effects
      && r.effects[|w.effects|] == CurrentRockSet(None)
    ensures hit.None? ==> r == Notify(w, w.hasSetCurrentRock, CurrentRockSet(None))
    ensures r == w.(effects := r.effects)
  {
    var cleared := Notify(w, w.hasSetCurrentRock, CurrentRockSet(None));
    if hit.None? || !w.hasSetCurrentRock then cleared
    else cleared.(effects := cleared.effects + Selections(w, hit.value))
  }

  /** The current rock after a run of setter calls, starting from `current`. */
  function CurrentAfter(effects: seq<Effect>, current: Option<Rock>): Option<Rock>
    decreases |effects|
  {
    if |effects| == 0 then current
    else CurrentAfter(effects[1..], if effects[0].CurrentRockSet? then effects[0].rock else current)
  }

  /** The reference choice: the last mesh, in traversal order, that selects a rock. */
  function LastSelected(w: Registry, meshes: seq<string>): (r: Option<Rock>)
    ensures r.Some? ==> exists i :: 0 <= i < |meshes| && RockOfMesh(w, meshes[i]) == r
    ensures r.None? <==> forall i :: 0 <= i < |meshes| ==> RockOfMesh(w, meshes[i]).None?
    decreases |meshes|
  {
    if |meshes| == 0 then None
    else
      var last := RockOfMesh(w, meshes[|meshes| - 1]);
      if last.Some? then last
      else
        var earlier := LastSelected(w, meshes[..|meshes| - 1]);
        assert forall i :: 0 <= i < |meshes| - 1 ==> meshes[..|meshes| - 1][i] == meshes[i];
        earlier
  }

  lemma {:induction false} CurrentAfterAppend(a: seq<Effect>, b: seq<Effect>, current: Option<Rock>)
    ensures CurrentAfter(a + b, current) == CurrentAfter(b, CurrentAfter(a, current))
    decreases |a|
  {
    if |a| == 0 {
      assert a + b == b;
    } else {
      assert (a + b)[0] == a[0];
      assert (a + b)[1..] == a[1..] + b;
      CurrentAfterAppend(a[1..], b, if a[0].CurrentRockSet? then a[0].rock else current);
    }
  }

  lemma {:induction false} SelectionsSnoc(w: Registry, meshes: seq<string>)
    requires |meshes| > 0
    ensures var last := RockOfMesh(w, meshes[|meshes| - 1]);
      Selections(w, meshes) == Selections(w, meshes[..|meshes| - 1]) + (if last.Some? then [CurrentRockSet(last)] else [])
    decreases |meshes|
  {
    if |meshes| > 1 {
      var rest := meshes[1..];
      assert rest[..|rest| - 1] == meshes[..|meshes| - 1][1..];
      assert rest[|rest| - 1] == meshes[|meshes| - 1];
      SelectionsSnoc(w, rest);
      assert meshes[..|meshes| - 1][0] == meshes[0];
    } else {
      assert meshes[..0] == [];
      assert meshes[1..] == [];
    }
  }

  /** The selections of a traversal leave the current rock at the last match,
      or where it was when nothing matched. */
  lemma {:induction false} SelectionsPickLast(w: Registry, meshes: seq<string>, current: Option<Rock>)
    ensures var last := LastSelected(w, meshes);
      CurrentAfter(Selections(w, meshes), current) == if last.Some? then last else current
    decreases |meshes|
  {
    if |meshes| > 0 {
      var front := meshes[..|meshes| - 1];
      var last := RockOfMesh(w, meshes[|meshes| - 1]);
      SelectionsSnoc(w, meshes);
      SelectionsPickLast(w, front, current);
      var tail: seq<Effect> := if last.Some? then [CurrentRockSet(last)] else [];
      CurrentAfterAppend(Selections(w, front), tail, current);
      if last.Some? {
        assert CurrentAfter(tail, CurrentAfter(Selections(w, front), current)) == CurrentAfter([], last);
      }
    }
  }

  /** After `shootRay`, the current rock is the last rock a mesh of the hit
      object selects, and none when there is no such mesh or no hit at all. */
  lemma ShootRaySelectsLastMatch(w: Registry, hit: Option<seq<string>>, current: Option<Rock>)
    requires w.hasSetCurrentRock
    ensures var r := ShootRay(w, hit);
      CurrentAfter(r.effects[|w.effects|..], current) == if hit.None? then None else LastSelected(w, hit.value)
  {
    var r := ShootRay(w, hit);
    var clear: seq<Effect> := [CurrentRockSet(None)];
    if hit.None? {
      assert r.effects[|w.effects|..] == clear;
      assert CurrentAfter(clear, current) == CurrentAfter([], None);
    } else {
      var picks := Selections(w, hit.value);
      assert r.effects[|w.effects|..] == clear + picks;
      CurrentAfterAppend(clear, picks, current);
      assert CurrentAfter(clear, current) == CurrentAfter([], None);
      SelectionsPickLast(w, hit.value, None);
    }
  }

  /** A rock whose mesh is attached is the one a ray through that mesh selects. */
  lemma AttachedRockIsSelectable(w: Registry, id: string, mesh: Mesh)
    requires WellFormed(w) && id in w.idToRock && id != ""
    requires w.hasSetCurrentRock
    ensures var attached := AttachMesh(w, id, mesh);
      var r := ShootRay(attached, Some([mesh.uuid]));
      && CurrentAfter(r.effects[|w.effects|..], None) == Some(attached.idToRock[id])
      && attached.idToRock[id].guid == id
  {
    var attached := AttachMesh(w, id, mesh);
    ShootRaySelectsLastMatch(attached, Some([mesh.uuid]), None);
    assert RockOfMesh(attached, [mesh.uuid][0]) == Some(attached.idToRock[id]);
  }
}

=== FILE: wrappers.dfy ===
/** Optional values and outcomes that may end in a thrown JavaScript error. */
module Wrappers {

  /** A value that may be absent: `undefined` in the original program. */
  datatype Option<+T> = None | Some(value: T) {

    /** Returns the value in Some, or `default` when absent. */
    function GetOr(default: T): T {
      match this
      case Some(v) => v
      case None => default
    }
  }

  /** The outcome of an operation that either completes or throws a `TypeError`
      (for instance by reading a property of `undefined`). */
  datatype Result<+T> = Ok(value: T) | Thrown(error: string)
}
